=== FILE: README.md ===
# PIN login, lockout and till cart of a restaurant POS client

A Dafny model of the core of a Next.js point-of-sale client, in four parts.

- **The PIN provider** (`src/lib/pin-auth-context.tsx`) signs staff in by PIN alone against the remote `pos_users` table. Its operations:
  - `login` counts failed attempts and locks a PIN for thirty minutes on the fifth failure.
  - `logout` clears the session.
  - `changePin` checks its guards in a fixed order.
  - `resetLoginAttempts` clears the signed-in row's count and lock.
  - `checkSession` restores a session from the `pos_user` storage slot.
- **The PIN screen** (`src/app/pin_login.tsx`) is a six-digit buffer that submits itself when full. It is driven by an on-screen pad, which is disabled while a submission runs or the account is locked, and by the keyboard, which is never disabled.
- **The till** (`src/app/page.tsx`) keeps the current order as a list of lines keyed by product id, with a quantity and a total per line. It also provides:
  - the order total;
  - the category tabs over a fixed catalogue;
  - a payment button that empties the order.
- **The stand-in provider** (`src/types/pin-auth-context.tsx`) checks PINs against three hard-coded sample users and uses a four-digit PIN rule.

Every operation is a pure function from a state to the next state and the reply.

- The remote table is a map from id to record. Two directory calls are modelled:
  - A `.single()` query returns a row exactly when one row matches its filter.
  - An `.update()` patches every matching row.
- The clock is an integer millisecond argument, `now`.
- A remote call that throws is chosen by a `Fault` argument.
- Prices are integer cents.

Modules:

| module | file |
|---|---|
| `Common` | `common.dfy` |
| `Seqs` | `seqs.dfy` |
| `Replies` | `replies.dfy` |
| `Directory` | `directory.dfy` |
| `PinAuth` | `pin_auth.dfy` |
| `PinAuthProperties` | `pin_auth_properties.dfy` |
| `PinPad` | `pin_pad.dfy` |
| `Cart` | `cart.dfy` |
| `StubAuth` | `stub_auth.dfy` |

## What the lockout actually does

The PIN screen tells the user that an account "locks after 5 failed attempts" (src/app/pin_login.tsx:169). The code does something narrower, and this model follows the code.

- **A PIN that no row holds changes nothing.** `incrementLoginAttempts` looks the PIN up with `.single()` and finds no row, so there is no count to raise (`Login`, last clause; `UnheldPinRefused`).
- **The counter can only reach an inactive row.** A failed attempt is counted only against the one row that holds the PIN. If that row were active, the credential check would have accepted it and the login would have succeeded. So the count only ever grows on an inactive row that alone holds its PIN.
- **An active account can never be locked by wrong guesses**, however many there are, as long as the directory answers every query it does not throw on (`LoginNeverPenalisesActiveRow`, `ActiveRowStaysUnlocked`). A credential query that instead returns an error object is a different matter; see "Left out".
- **Only a sole inactive holder moves toward a lock.** Five failures with the PIN of an inactive sole holder do lock it, and later attempts get "Account locked. Try again in 30 minutes." (`FailedLoginOnInactiveRow`, `FifthFailureLocks`).
- **The uniqueness check in `changePin` is loose.** It also uses `.single()`, so it passes when two or more other rows already hold the new PIN. When PINs are unique, which every operation preserves, the check is exact (`UniquenessCheckExact`, `ChangePinKeepsPinsUnique`).
- **The session after a login is stale.** It is the row as read before the login write, so its last-login field is the previous one (`Login`, `RestoreRefreshesLoginSession`).

## Model

| member | source | states |
|---|---|---|
| `Common.DecimalValueOfNatToString` | src/lib/pin-auth-context.tsx:83-86 | the minute count printed in the lock message reads back as the same number, so the rendering loses nothing |
| `Replies.ErrorField` | src/lib/pin-auth-context.tsx:22 | a reply carries an error text exactly when it is a failure, and that text is never empty |
| `Replies.LockMessageDeterminesMinutes` | src/lib/pin-auth-context.tsx:83-87 | two different minute counts never produce the same "Account locked" message |
| `Seqs.Filter` | src/app/page.tsx:120 | `Array.filter` keeps exactly the accepted elements, each one taken from the input, and no more of them than the input has |
| `Directory.Single` | src/lib/pin-auth-context.tsx:72-76 | `.single()` returns a row exactly when one row matches; the row is that match and is stored under its own id |
| `Directory.UpdateWhere` | src/lib/pin-auth-context.tsx:90-96 | `.update().eq()` patches every matching row, leaves every other row as it was, and adds or drops no row |
| `Directory.SingleByPinUnique` | src/lib/pin-auth-context.tsx:72-76 | with unique PINs, the lookup by PIN alone (also at :136-140) finds a row exactly when some row holds the PIN |
| `PinAuth.MinutesLeft` | src/lib/pin-auth-context.tsx:83 | the remaining time rounded up to whole minutes: at least 1, and `(m-1)` minutes < time left <= `m` minutes |
| `PinAuth.CheckLock` | src/lib/pin-auth-context.tsx:71-98 | a lock in force refuses the login with the minutes left; a lock that ran out is cleared (count 0, no lock) before anything else; a thrown probe or unlock fails the login; otherwise the table is untouched |
| `PinAuth.IncrementLoginAttempts` | src/lib/pin-auth-context.tsx:134-163 | when exactly one row holds the PIN, its count goes up by one; the lock is set to now + 30 min exactly when the count reaches 5 (cleared otherwise); the flag goes up at 5 even if the write throws; no other row changes |
| `PinAuth.Authenticate` | src/lib/pin-auth-context.tsx:100-128 | success exactly when one active row holds the PIN and no call throws. "Invalid PIN code" comes exactly when the credential query does not throw and finds no single active row, and then the table and flag are those the failed-attempt counter leaves. "Login failed" comes exactly when the credential query or the success write throws, and then nothing changes. Every failure leaves the session and storage alone |
| `PinAuth.Login` | src/lib/pin-auth-context.tsx:69-132 | success exactly when there is no lock in force, no thrown call and one active row holds the PIN. On success the row is reset and stamped, and the session and storage get the row as read before the stamp. A failure keeps the session. A lock in force changes nothing and reports the minutes. "Invalid PIN code" comes exactly when no single active row holds the PIN. The lock message comes only from a lock in force. Any other failure is "Login failed. Please try again.", the reply of a thrown call, and leaves the flag alone. A PIN nobody holds changes nothing |
| `PinAuth.LoginFailedExactly` | src/lib/pin-auth-context.tsx:71-131 | "Login failed" comes exactly when the lock query throws or, with no lock in force, the unlock write, the credential query or the success write throws; it leaves the flag, the session and storage as they were; a thrown lock query or unlock write leaves the whole state, table included, as it was |
| `PinAuth.Logout` | src/lib/pin-auth-context.tsx:165-169 | nobody signed in, storage slot empty, lock flag down, table untouched |
| `PinAuth.ChangePin` | src/lib/pin-auth-context.tsx:171-214 | guards in order: no session, wrong current PIN, not six digits, PIN held by another row. Once they all pass, a thrown write gives "Failed to update PIN". Each failure changes nothing. Success exactly when every guard passes and the write does not throw. On success only the signed-in row's PIN changes, and the session and storage carry the new PIN |
| `PinAuth.ResetLoginAttempts` | src/lib/pin-auth-context.tsx:216-232 | with a session and no thrown write, the signed-in row's count and lock are cleared and the flag goes down; nothing else changes; without a session, or when the write throws, nothing changes |
| `PinAuth.CheckSession` | src/lib/pin-auth-context.tsx:40-67 | a stored user survives exactly when an active row with its id exists, and the session becomes that current row; otherwise, or on a throw, the session and the slot are cleared; nothing stored means nothing changes |
| `PinAuthProperties.IncrementSparesActiveRow` | src/lib/pin-auth-context.tsx:134-159 | after a failed credential check, the attempt counter leaves every active row unchanged |
| `PinAuthProperties.AuthenticateNeverPenalisesActiveRow` | src/lib/pin-auth-context.tsx:100-128 | the credential step only ever zeroes an active row's count and clears its lock |
| `PinAuthProperties.LoginNeverPenalisesActiveRow` | src/lib/pin-auth-context.tsx:69-132 | a login, right or wrong, never raises an active row's count or locks it, when every query either answers or throws |
| `PinAuthProperties.ActiveRowStaysUnlocked` | src/lib/pin-auth-context.tsx:146-150 | an unlocked active row stays unlocked through any login, when every query either answers or throws |
| `PinAuthProperties.UnheldPinRefused` | src/lib/pin-auth-context.tsx:71-112 | a PIN that no row holds is refused with "Invalid PIN code" and changes nothing: no lock applies and no count goes up |
| `PinAuthProperties.FailedLoginOnInactiveRow` | src/lib/pin-auth-context.tsx:108-111 | a wrong login with the PIN of an unlocked inactive sole holder gives "Invalid PIN code", adds one to its count, locks it for 30 minutes exactly at 5, raises the flag then, and keeps the session |
| `PinAuthProperties.LockedRowRefused` | src/lib/pin-auth-context.tsx:78-87 | while the sole holder of a PIN is locked, every login with that PIN is refused with the minutes left and changes nothing |
| `PinAuthProperties.FreshLockMinutes` | src/lib/pin-auth-context.tsx:83 | a lock that starts this instant reports thirty minutes left |
| `PinAuthProperties.FifthFailureLocks` | src/lib/pin-auth-context.tsx:146-150 | with four failures on record, one more locks the row for 30 minutes, and the next login is refused with "Account locked. Try again in 30 minutes." |
| `PinAuthProperties.LockWindowMinutes` | src/lib/pin-auth-context.tsx:82-87 | during a 30-minute lock the reported minutes are between 1 and 30 |
| `PinAuthProperties.ExpiredLockThenCorrectPin` | src/lib/pin-auth-context.tsx:88-97 | after the lock runs out, the right PIN of an active sole holder succeeds and leaves the row with count 0 and no lock |
| `PinAuthProperties.ExpiredLockThenWrongPin` | src/lib/pin-auth-context.tsx:78-111 | an expired lock is lifted before the PIN is checked: a wrong guess on the inactive sole holder leaves its count at 1, sets no new lock and leaves the flag alone |
| `PinAuthProperties.UniquenessCheckExact` | src/lib/pin-auth-context.tsx:184-194 | with unique PINs, the "already in use" check passes exactly when no other row holds the new PIN |
| `PinAuthProperties.ChangePinKeepsPinsUnique` | src/lib/pin-auth-context.tsx:184-200 | `changePin` keeps the table's PINs unique |
| `PinAuthProperties.OtherOperationsKeepPinsUnique` | src/lib/pin-auth-context.tsx:115-122 | `login` (this write and the others at :88-97 and :152-158), `logout` (:165-169), `resetLoginAttempts` (:216-232) and `checkSession` (:40-67) keep PINs unique, since none of them writes a PIN |
| `PinAuthProperties.ChangePinThenLogin` | src/lib/pin-auth-context.tsx:196-210 | after a PIN change, the new PIN signs the same person in, and the old PIN is refused and changes nothing |
| `PinAuthProperties.LogoutThenRestore` | src/lib/pin-auth-context.tsx:165-169 | restoring after a logout signs nobody in and touches no row |
| `PinAuthProperties.LoginAuthenticates` | src/lib/pin-auth-context.tsx:236 | `isAuthenticated` (`!!user`) after a login: true exactly when the login succeeds, otherwise as before |
| `PinAuthProperties.AuthenticatedAcrossOperations` | src/lib/pin-auth-context.tsx:236 | `isAuthenticated` (`!!user`): a logout makes it false; `changePin` and `resetLoginAttempts` never change it; a restore makes it true only from a stored user |
| `PinAuthProperties.RestoreRefreshesLoginSession` | src/lib/pin-auth-context.tsx:114-125 | the session after a login carries the previous last-login; restoring it from storage replaces it with the current row, stamped with that login |
| `PinAuthProperties.ResetLiftsLock` | src/lib/pin-auth-context.tsx:216-228 | after a reset, the signed-in person's PIN is not refused as locked at any time, and the flag is down |
| `PinPad.StartSubmit` | src/app/pin_login.tsx:37-41 | submitting marks the screen busy, clears the error, hands the PIN to `login`, and leaves the buffer and the success banner alone |
| `PinPad.PinChange` | src/app/pin_login.tsx:15-25 | a digit is appended only while the buffer is short of six, and clears the error; the submission fires exactly when the buffer reaches six, and hands over the buffer; the success banner is never touched |
| `PinPad.Backspace` | src/app/pin_login.tsx:27-30 | drops the last character (an empty buffer stays empty) and clears the error |
| `PinPad.Clear` | src/app/pin_login.tsx:32-35 | empties the buffer and the error |
| `PinPad.FinishSubmit` | src/app/pin_login.tsx:43-54 | the screen is no longer busy; success shows the banner; failure empties the buffer and shows the reply's error, or "Login failed" when there is none |
| `PinPad.SuccessTimerFires` | src/app/pin_login.tsx:45-48 | the banner goes and the buffer empties |
| `PinPad.SuccessThenTimerResets` | src/app/pin_login.tsx:37-55 | a successful submission followed by the one-second timer leaves the screen exactly as on mount |
| `PinPad.BackspaceUndoesDigit` | src/app/pin_login.tsx:15-30 | Backspace after a digit gives back the buffer as it was, and Clear empties it |
| `PinPad.DigitKeyShape` | src/app/pin_login.tsx:59 | the string comparisons admit exactly the keys that start with 0-8, plus the key "9" |
| `PinPad.BrowserDigitKeys` | src/app/pin_login.tsx:59 | for the keys a browser sends, the comparisons admit exactly the ten one-character digit keys |
| `PinPad.KeyPress` | src/app/pin_login.tsx:57-66 | digit keys go to the pad handler, Backspace deletes, Enter on a full buffer starts the submission exactly as the pad does (busy, error cleared, that buffer sent), Enter on a shorter buffer and every other key do nothing; the keyboard is not disabled while busy or locked |
| `PinPad.KeyPressSubmits` | src/app/pin_login.tsx:58-65 | a key submits exactly when a digit completes a five-digit buffer or Enter meets a full one |
| `PinPad.KeyPressKeepsBuffer` | src/app/pin_login.tsx:15-25 | browser keys keep the buffer at most six long and all digits, and it grows only by the pressed digit |
| `PinPad.LongDigitKeyOverfills` | src/app/pin_login.tsx:59-60 | the bound depends on one-character keys: a two-character key beginning with a digit would overfill the buffer to seven and never submit |
| `PinPad.Press` | src/app/pin_login.tsx:127-161 | pad buttons do nothing while busy or locked, and otherwise call their handler |
| `PinPad.PressKeepsBuffer` | src/app/pin_login.tsx:127-161 | pad buttons keep the buffer at most six long and all digits |
| `PinPad.SubmitToProvider` | src/app/pin_login.tsx:37-55 | a submission through the provider's `login` leaves the screen idle. On failure the buffer is empty and the screen shows the provider's message, never the fallback. The login that raises the lock flag shows "Invalid PIN code". Once the reply is in, the pad is disabled exactly when the provider's lock flag is up |
| `PinPad.PadDisabledWhileSubmitting` | src/app/pin_login.tsx:132 | the pad buttons, disabled while submitting or locked (also at :141, :149, :157), do nothing from the start of a submission; once the reply is shown they are enabled again exactly when the account is not locked |
| `Cart.Find` | src/app/page.tsx:107 | finds a line exactly when the order has one for the product; it is the first such line |
| `Cart.BumpLines` | src/app/page.tsx:109-113 | each line for the product gains one unit and is repriced from its own product; other lines are unchanged |
| `Cart.SetLines` | src/app/page.tsx:128-134 | each line for the product gets the new quantity and is repriced from its own product; other lines are unchanged |
| `Cart.AddToOrder` | src/app/page.tsx:105-116 | an existing product's line gains one unit, repriced from the line's stored price; a new product is appended as one unit at its own price; other lines are unchanged; the product is in the order afterwards |
| `Cart.RemoveFromOrder` | src/app/page.tsx:119-121 | no line for the product remains; every other line is kept, and nothing new appears |
| `Cart.UpdateQuantity` | src/app/page.tsx:123-135 | a quantity of zero or less is removal; otherwise the product's lines get the quantity and the line total of quantity times price, and the other lines are unchanged |
| `Cart.ProcessPayment` | src/app/page.tsx:312-318 | the order ends empty; the button does nothing on an empty order |
| `Cart.PaymentEnabled` | src/app/page.tsx:318 | the payment button is disabled only when nothing is owed: the total is 0 and no product has any quantity |
| `Cart.PaymentStartsFreshOrder` | src/app/page.tsx:312-318 | after a payment nothing is owed, and the next product tapped becomes the single line of a new order, with quantity one and the product's price |
| `Cart.FilterByCategory` | src/app/page.tsx:141-143 | "all" shows every product; any other tab shows exactly the products of that category, drawn from the catalogue |
| `Cart.UniqueLineCount` | src/app/page.tsx:105-116 | with one line per product, a product has one line if present and none otherwise |
| `Cart.Total` | src/app/page.tsx:137-139 | the `reduce` over line totals equals the order's worth at catalogue prices (quantity times price, summed) when the lines are consistent, and is never negative when no line total is |
| `Cart.TotalIsValue` | src/app/page.tsx:137-139 | for consistent lines, the total equals the sum of quantity times price |
| `Cart.TotalAppend` | src/app/page.tsx:137-139 | the total of two orders joined is the sum of their totals |
| `Cart.TotalSplitsByProduct` | src/app/page.tsx:137-139 | the total is what one product's lines cost plus the total of the order without them |
| `Cart.BumpLinesQuantity` | src/app/page.tsx:109-113 | bumping adds one unit per line of the product and changes no other product's quantity |
| `Cart.BumpLinesTotal` | src/app/page.tsx:111 | on consistent lines, bumping raises the total by the unit price of each bumped line |
| `Cart.AddToOrderQuantity` | src/app/page.tsx:105-116 | adding puts exactly one more unit of the product in the order and changes no other product's count |
| `Cart.AddToOrderTotal` | src/app/page.tsx:105-116 | adding raises the total by one unit price: the stored line's price, or the product's own price for a new line |
| `Cart.AddToOrderKeepsInvariants` | src/app/page.tsx:105-116 | adding keeps one line per product and every line's total equal to quantity times price |
| `Cart.RemoveFromOrderQuantity` | src/app/page.tsx:119-121 | removing leaves none of the product and keeps every other product's count |
| `Cart.RemoveAbsentIsIdentity` | src/app/page.tsx:119-121 | removing a product the order does not hold changes nothing |
| `Cart.RemoveKeepsOrder` | src/app/page.tsx:120 | removal acts on each part of an order in place, so the kept lines keep their order |
| `Cart.RemoveFromOrderTotal` | src/app/page.tsx:119-121 | removing lowers the total by exactly the removed line's total |
| `Cart.RemoveFromOrderKeepsInvariants` | src/app/page.tsx:119-121 | removing keeps one line per product and consistent lines |
| `Cart.SetLinesQuantity` | src/app/page.tsx:128-134 | setting gives the product the new quantity on each of its lines and changes no other product |
| `Cart.UpdateQuantityQuantity` | src/app/page.tsx:123-135 | after an update the product holds exactly the new quantity if positive and present, none otherwise; other products are unchanged |
| `Cart.UpdateQuantityTotal` | src/app/page.tsx:128-134 | a positive update changes the total by the new line total minus the old one |
| `Cart.UpdateQuantityKeepsInvariants` | src/app/page.tsx:123-135 | updates keep one line per product and consistent lines |
| `Cart.CatalogueWellFormed` | src/app/page.tsx:28-101 | the catalogue has distinct product ids and positive prices |
| `Cart.CatalogueTabsPartition` | src/app/page.tsx:103-143 | every catalogue product shows under "all" and under exactly one other tab, its own category |
| `Cart.FilterByCategoryExact` | src/app/page.tsx:141-143 | a tab lists each product of its category as often as the catalogue does, and no product of another category |
| `Cart.FilterByCategoryKeepsOrder` | src/app/page.tsx:141-143 | a tab keeps catalogue order: filtering a list split in two gives the filtered halves, in the same order |
| `StubAuth.FindByPin` | src/types/pin-auth-context.tsx:49 | `find` returns a user exactly when one holds the PIN, and returns the first such user |
| `StubAuth.FindByPinUnique` | src/types/pin-auth-context.tsx:49 | with distinct PINs, `find` returns the user holding the PIN |
| `StubAuth.SampleUsersWellFormed` | src/types/pin-auth-context.tsx:24-28 | the sample users have distinct ids and distinct four-digit PINs |
| `StubAuth.StubLogin` | src/types/pin-auth-context.tsx:48-58 | succeeds exactly for a sample PIN, signs in and stores a sample user holding it; otherwise "Invalid PIN code" and no change |
| `StubAuth.StubLogout` | src/types/pin-auth-context.tsx:60-63 | nobody signed in and nothing stored |
| `StubAuth.StubRestore` | src/types/pin-auth-context.tsx:34-46 | a stored user becomes the signed-in user; with nothing stored nothing changes |
| `StubAuth.StubChangePin` | src/types/pin-auth-context.tsx:65-84 | guards in order: no user, wrong current PIN, not four digits; each failure changes nothing; success exactly when all pass, and the session and storage carry the new PIN |
| `StubAuth.StubFormatMessage` | src/types/pin-auth-context.tsx:74-76 | the format error reads "PIN must be 4 digits" |
| `StubAuth.SamplePinSignsInItsUser` | src/types/pin-auth-context.tsx:48-58 | each sample PIN signs in its own user |
| `StubAuth.ChangedPinIsForgotten` | src/types/pin-auth-context.tsx:78-81 | a changed PIN lives only in the session: after logging out, the old PIN still works, and the new one works only if a sample user already holds it |
| `StubAuth.StubAllowsSharedPin` | src/types/pin-auth-context.tsx:65-84 | the stub lets the admin take the cashier's PIN, which afterwards signs in the cashier |
| `StubAuth.StubRestoreRoundTrip` | src/types/pin-auth-context.tsx:34-63 | restoring after a logout signs nobody in; restoring after a login gives back the user who signed in |

## Left out

- The `loading` flags (src/lib/pin-auth-context.tsx:33, src/types/pin-auth-context.tsx:32): they only gate rendering.
- Timestamps: the model uses integer milliseconds instead of ISO strings. Each operation reads the clock once (`now`). One `login` call reads it at most twice: at src/lib/pin-auth-context.tsx:80, then either at :119 on success or at :148 when it locks; the last two never both run.
- Error objects returned by the directory: a `Fault` only makes a call throw. A query that returns an error object (a lost connection, say) while its rows exist is not modelled; every query answers from the table. In the code such an error reads as "no row":
  - the lock probe (src/lib/pin-auth-context.tsx:72-78) then skips the lock check, even for a locked row;
  - the credential query (src/lib/pin-auth-context.tsx:101-112) then counts a failed attempt, even for a correct PIN;
  - the uniqueness query of `changePin` (src/lib/pin-auth-context.tsx:185-194) then lets the new PIN through, even when another row holds it.
- A write's error object is ignored, as the code ignores it. The exception is `changePin`, where it gives the same "Failed to update PIN" as a thrown write.
- PinAuthProperties.LoginNeverPenalisesActiveRow, PinAuthProperties.ActiveRowStaysUnlocked: these hold only for the faults modelled. In the code, a credential query that returns an error object while an active row alone holds the PIN sends that correct PIN to `incrementLoginAttempts` (src/lib/pin-auth-context.tsx:108-111). That raises the active row's count, and the fifth such error locks it.
- Thrown calls: only the calls inside a `try` are modelled as throwing. The uniqueness query of `changePin` (src/lib/pin-auth-context.tsx:185-190) sits outside the `try`; a throw there rejects the promise, and that case is not modelled.
- `JSON.parse` failures of the storage slot are not modelled. The slot holds the record itself, so it always parses.
- Concurrency:
  - Interleaved asynchronous calls, and React's batching and stale closures, are not modelled.
  - Each operation is one atomic step.
  - A second keyboard submission while one is in flight is a separate `KeyPress`.
- The pad's one-second success timer is a separate event (`SuccessTimerFires`), not a delay.
- Floating-point prices and `toFixed(2)` formatting: prices are integer cents.
- JavaScript compares strings by UTF-16 code units. `LexLess` compares Dafny characters, which agree for the keys considered here.
- Rendering is not modelled:
  - the show-PIN toggle;
  - the lock banner;
  - `alert` calls;
  - the "Send Receipt" button, which changes no state;
  - the cash/card choice, which does not affect the order.
- `usePinAuth` throwing outside a provider is not modelled.
- Replies.Message: its contract spells out only the lock message, which lemmas use. The other seven fixed strings are given by its definition.

=== FILE: cart.dfy ===
/** The till screen of `src/app/page.tsx`: the current order as a list of
    lines keyed by product id, its total, the category tabs over the
    catalogue, and the payment button that empties the order. Prices are
    whole cents, so the catalogue's 12.99 is 1299. */
module Cart {
  import opened Common
  import Seqs

  datatype Product = Product(id: string, name: string, price: int, category: string)

  /** One line of the order: a product, how many, and the line's total. */
  datatype OrderItem = OrderItem(product: Product, quantity: int, totalPrice: int)

  type Order = seq<OrderItem>

  /** The products on sale, with their prices in cents. */
  const Catalogue: seq<Product> := [
    Product("1", "Classic Burger", 1299, "main"),
    Product("2", "Crispy Fries", 499, "sides"),
    Product("3", "Coca Cola", 299, "drinks"),
    Product("4", "Margherita Pizza", 1599, "main"),
    Product("5", "Caesar Salad", 899, "sides"),
    Product("6", "Espresso Coffee", 399, "drinks"),
    Product("7", "Chicken Wings", 1199, "main"),
    Product("8", "Onion Rings", 599, "sides"),
    Product("9", "Iced Tea", 249, "drinks")
  ]

  /** The tabs above the catalogue. */
  const Categories: seq<string> := ["all", "main", "sides", "drinks"]

  // ---------------------------------------------------------------------
  // Views of an order

  predicate HasLine(o: Order, id: string) {
    exists i :: 0 <= i < |o| && o[i].product.id == id
  }

  /** At most one line per product. */
  predicate UniqueLines(o: Order) {
    forall i, j :: 0 <= i < j < |o| ==> o[i].product.id != o[j].product.id
  }

  /** A line's total is its quantity times its product's price, and the
      line holds at least one unit. */
  predicate LineConsistent(l: OrderItem) {
    l.quantity >= 1 && l.totalPrice == l.quantity * l.product.price
  }

  predicate Consistent(o: Order) {
    forall i :: 0 <= i < |o| ==> LineConsistent(o[i])
  }

  /** How many units of product `id` the order holds, over all its lines. */
  function QuantityOf(o: Order, id: string): int
    decreases |o|
  {
    if |o| == 0 then 0
    else (if o[0].product.id == id then o[0].quantity else 0) + QuantityOf(o[1..], id)
  }

  /** How many lines the order has for product `id`. */
  function LineCount(o: Order, id: string): nat
    decreases |o|
  {
    if |o| == 0 then 0
    else (if o[0].product.id == id then 1 else 0) + LineCount(o[1..], id)
  }

  /** The sum of the unit prices of the lines for product `id`. */
  function PriceOfLines(o: Order, id: string): int
    decreases |o|
  {
    if |o| == 0 then 0
    else (if o[0].product.id == id then o[0].product.price else 0) + PriceOfLines(o[1..], id)
  }

  /** The sum of the line totals for product `id`. */
  function AmountOf(o: Order, id: string): int
    decreases |o|
  {
    if |o| == 0 then 0
    else (if o[0].product.id == id then o[0].totalPrice else 0) + AmountOf(o[1..], id)
  }

  /** `getTotalAmount()`: the sum of the line totals. On consistent lines
      it is what the order is worth at catalogue prices, and it is never
      negative when no price is. */
  function Total(o: Order): (r: int)
    ensures Consistent(o) ==> r == Value(o)
    ensures (forall i :: 0 <= i < |o| ==> o[i].totalPrice >= 0) ==> r >= 0
    decreases |o|
  {
    if |o| == 0 then 0 else o[0].totalPrice + Total(o[1..])
  }

  /** The order's worth computed from quantities and prices alone. */
  function Value(o: Order): int
    decreases |o|
  {
    if |o| == 0 then 0 else o[0].quantity * o[0].product.price + Value(o[1..])
  }

  /** `prev.find(item => item.product.id === id)`: the first line for `id`. */
  function Find(o: Order, id: string): (r: Option<OrderItem>)
    ensures r.Some? <==> HasLine(o, id)
    ensures r.Some? ==>
      exists i :: 0 <= i < |o| && o[i] == r.value && (forall j :: 0 <= j < i ==> o[j].product.id != id)
    ensures r.Some? ==> r.value.product.id == id
    decreases |o|
  {
    if |o| == 0 then None
    else if o[0].product.id == id then Some(o[0])
    else
      var r := Find(o[1..], id);
      assert HasLine(o[1..], id) ==> HasLine(o, id) by {
        if i :| 0 <= i < |o[1..]| && o[1..][i].product.id == id { assert o[i + 1] == o[1..][i]; }
      }
      assert HasLine(o, id) ==> HasLine(o[1..], id) by {
        if i :| 0 <= i < |o| && o[i].product.id == id { assert o[1..][i - 1] == o[i]; }
      }
      if r.Some? then
        assert exists i :: 0 <= i < |o| && o[i] == r.value && (forall j :: 0 <= j < i ==> o[j].product.id != id) by {
          var i :| 0 <= i < |o[1..]| && o[1..][i] == r.value
            && (forall j :: 0 <= j < i ==> o[1..][j].product.id != id);
          assert o[i + 1] == r.value;
          assert forall j :: 1 <= j < i + 1 ==> o[j] == o[1..][j - 1];
        }
        r
      else r
  }

  // ---------------------------------------------------------------------
  // Operations

  /** The matching lines with one unit more, repriced from the product the
      line already holds; every other line as it was. */
  function BumpLines(o: Order, id: string): (r: Order)
    ensures |r| == |o|
    ensures forall i :: 0 <= i < |o| && o[i].product.id == id ==>
      r[i].product == o[i].product && r[i].quantity == o[i].quantity + 1
      && r[i].totalPrice == (o[i].quantity + 1) * o[i].product.price
    ensures forall i :: 0 <= i < |o| && o[i].product.id != id ==> r[i] == o[i]
    decreases |o|
  {
    if |o| == 0 then []
    else
      var l := o[0];
      var head := if l.product.id == id
        then l.(quantity := l.quantity + 1, totalPrice := (l.quantity + 1) * l.product.price)
        else l;
      [head] + BumpLines(o[1..], id)
  }

  /** The matching lines set to `q` units, repriced from their products;
      every other line as it was. */
  function SetLines(o: Order, id: string, q: int): (r: Order)
    ensures |r| == |o|
    ensures forall i :: 0 <= i < |o| && o[i].product.id == id ==>
      r[i].product == o[i].product && r[i].quantity == q
      && r[i].totalPrice == q * o[i].product.price
    ensures forall i :: 0 <= i < |o| && o[i].product.id != id ==> r[i] == o[i]
    decreases |o|
  {
    if |o| == 0 then []
    else
      var l := o[0];
      var head := if l.product.id == id
        then l.(quantity := q, totalPrice := q * l.product.price)
        else l;
      [head] + SetLines(o[1..], id, q)
  }

  /** `addToOrder(product)`: one more unit on the product's line, or a new
      line of one unit at the end of the order. */
  function AddToOrder(o: Order, p: Product): (r: Order)
    ensures HasLine(o, p.id) ==> |r| == |o|
    ensures HasLine(o, p.id) ==> forall i :: 0 <= i < |o| ==>
      r[i].product == o[i].product
      && r[i].quantity == o[i].quantity + (if o[i].product.id == p.id then 1 else 0)
      && r[i].totalPrice == (if o[i].product.id == p.id then r[i].quantity * o[i].product.price else o[i].totalPrice)
    ensures !HasLine(o, p.id) ==> r == o + [OrderItem(p, 1, p.price)]
    ensures HasLine(r, p.id)
  {
    match Find(o, p.id)
    case Some(_) =>
      var r := BumpLines(o, p.id);
      assert HasLine(r, p.id) by {
        var i :| 0 <= i < |o| && o[i].product.id == p.id;
        assert r[i].product.id == p.id;
      }
      r
    case None =>
      var r := o + [OrderItem(p, 1, p.price)];
      assert r[|o|].product.id == p.id;
      r
  }

  /** `removeFromOrder(id)`: every line for `id` dropped, the rest kept in
      order. */
  function RemoveFromOrder(o: Order, id: string): (r: Order)
    ensures !HasLine(r, id)
    ensures forall i :: 0 <= i < |r| ==> r[i] in o
    ensures forall i :: 0 <= i < |o| && o[i].product.id != id ==> o[i] in r
  {
    Seqs.Filter(o, (l: OrderItem) => l.product.id != id)
  }

  /** `updateQuantity(id, q)`: a quantity of zero or less removes the
      product; otherwise its lines are set to `q` units. */
  function UpdateQuantity(o: Order, id: string, q: int): (r: Order)
    ensures q <= 0 ==> r == RemoveFromOrder(o, id)
    ensures q > 0 ==> |r| == |o|
    ensures q > 0 ==> forall i :: 0 <= i < |o| ==> r[i].product == o[i].product
    ensures q > 0 ==> forall i :: 0 <= i < |o| && o[i].product.id == id ==>
      r[i].quantity == q && r[i].totalPrice == q * o[i].product.price
    ensures q > 0 ==> forall i :: 0 <= i < |o| && o[i].product.id != id ==> r[i] == o[i]
  {
    if q <= 0 then RemoveFromOrder(o, id) else SetLines(o, id, q)
  }

  /** The two payment buttons are enabled only for a non-empty order. */
  predicate PaymentEnabled(o: Order)
    ensures !PaymentEnabled(o) ==> Total(o) == 0 && forall id :: QuantityOf(o, id) == 0
  {
    |o| != 0
  }

  /** A click on "Process Payment": a disabled button does nothing, and an
      enabled one empties the order. Either way the order ends empty. */
  function ProcessPayment(o: Order): (r: Order)
    ensures r == []
    ensures !PaymentEnabled(o) ==> r == o
  {
    if PaymentEnabled(o) then [] else o
  }

  /** `filteredProducts`: the whole list for "all", otherwise the products
      of the selected category in catalogue order. */
  function FilterByCategory(products: seq<Product>, selected: string): (r: seq<Product>)
    ensures selected == "all" ==> r == products
    ensures selected != "all" ==> forall i :: 0 <= i < |r| ==> r[i].category == selected && r[i] in products
    ensures selected != "all" ==>
      forall i :: 0 <= i < |products| && products[i].category == selected ==> products[i] in r
  {
    if selected == "all" then products
    else Seqs.Filter(products, (p: Product) => p.category == selected)
  }

  // ---------------------------------------------------------------------
  // Lemmas about the views

  lemma UniqueTail(o: Order)
    requires |o| > 0 && UniqueLines(o)
    ensures UniqueLines(o[1..])
    ensures !HasLine(o[1..], o[0].product.id)
  {
  }

  /** With one line per product, a product has one line if it is in the
      order and none otherwise. */
  lemma {:induction false} UniqueLineCount(o: Order, id: string)
    requires UniqueLines(o)
    ensures LineCount(o, id) == if HasLine(o, id) then 1 else 0
    decreases |o|
  {
    if |o| > 0 {
      UniqueTail(o);
      UniqueLineCount(o[1..], id);
      HasLineTail(o, id);
    }
  }

  lemma HasLineTail(o: Order, id: string)
    requires |o| > 0
    ensures HasLine(o, id) <==> o[0].product.id == id || HasLine(o[1..], id)
  {
  }

  lemma {:induction false} NoLineNoQuantity(o: Order, id: string)
    requires !HasLine(o, id)
    ensures QuantityOf(o, id) == 0 && LineCount(o, id) == 0
      && AmountOf(o, id) == 0 && PriceOfLines(o, id) == 0
    decreases |o|
  {
    if |o| > 0 {
      HasLineTail(o, id);
      NoLineNoQuantity(o[1..], id);
    }
  }

  /** On consistent lines the recorded totals add up to quantity times
      price. */
  lemma TotalIsValue(o: Order)
    requires Consistent(o)
    ensures Total(o) == Value(o)
  {
  }

  lemma {:induction false} TotalAppend(a: Order, b: Order)
    ensures Total(a + b) == Total(a) + Total(b)
    decreases |a|
  {
    if |a| == 0 {
      assert a + b == b;
    } else {
      assert (a + b)[1..] == a[1..] + b;
      TotalAppend(a[1..], b);
    }
  }

  lemma {:induction false} QuantityAppend(a: Order, b: Order, k: string)
    ensures QuantityOf(a + b, k) == QuantityOf(a, k) + QuantityOf(b, k)
    decreases |a|
  {
    if |a| == 0 {
      assert a + b == b;
    } else {
      assert (a + b)[1..] == a[1..] + b;
      QuantityAppend(a[1..], b, k);
    }
  }

  /** The total splits into the amount spent on one product and the rest. */
  lemma {:induction false} TotalSplitsByProduct(o: Order, id: string)
    ensures Total(o) == AmountOf(o, id) + Total(RemoveFromOrder(o, id))
    decreases |o|
  {
    if |o| > 0 {
      TotalSplitsByProduct(o[1..], id);
      RemoveFront(o, id);
    }
  }

  /** `removeFromOrder` unfolds one line at a time. */
  lemma RemoveFront(o: Order, id: string)
    requires |o| > 0
    ensures RemoveFromOrder(o, id) ==
      (if o[0].product.id != id then [o[0]] else []) + RemoveFromOrder(o[1..], id)
  {
  }

  // ---------------------------------------------------------------------
  // What each operation does to the views

  lemma BumpLinesFront(o: Order, id: string)
    requires |o| > 0
    ensures BumpLines(o, id)[1..] == BumpLines(o[1..], id)
    ensures BumpLines(o, id)[0].product.id == o[0].product.id
  {
  }

  /** Bumping raises the product's quantity by one unit per line and
      leaves every other product's quantity alone. */
  lemma {:induction false} BumpLinesQuantity(o: Order, id: string, k: string)
    ensures QuantityOf(BumpLines(o, id), k) ==
      QuantityOf(o, k) + (if k == id then LineCount(o, id) else 0)
    decreases |o|
  {
    if |o| > 0 {
      BumpLinesFront(o, id);
      BumpLinesQuantity(o[1..], id, k);
    }
  }

  /** On consistent lines, bumping raises the total by the unit price of
      every bumped line. */
  lemma {:induction false} BumpLinesTotal(o: Order, id: string)
    requires Consistent(o)
    ensures Total(BumpLines(o, id)) == Total(o) + PriceOfLines(o, id)
    decreases |o|
  {
    if |o| > 0 {
      var r := BumpLines(o, id);
      BumpLinesFront(o, id);
      assert LineConsistent(o[0]);
      assert o[0].product.id == id ==>
        r[0].totalPrice == o[0].totalPrice + o[0].product.price by {
        assert (o[0].quantity + 1) * o[0].product.price == o[0].quantity * o[0].product.price + o[0].product.price;
      }
      assert Consistent(o[1..]) by {
        assert forall i :: 0 <= i < |o[1..]| ==> o[1..][i] == o[i + 1];
      }
      BumpLinesTotal(o[1..], id);
      assert Total(r) == r[0].totalPrice + Total(r[1..]);
    }
  }

  lemma {:induction false} UniquePriceOfLines(o: Order, id: string)
    requires UniqueLines(o) && HasLine(o, id)
    ensures PriceOfLines(o, id) == Find(o, id).value.product.price
    decreases |o|
  {
    UniqueTail(o);
    HasLineTail(o, id);
    if o[0].product.id == id {
      NoLineNoQuantity(o[1..], id);
    } else {
      UniquePriceOfLines(o[1..], id);
    }
  }

  /** Adding a product puts exactly one more unit of it in the order and
      changes no other product's quantity. */
  lemma AddToOrderQuantity(o: Order, p: Product, k: string)
    requires UniqueLines(o)
    ensures QuantityOf(AddToOrder(o, p), k) == QuantityOf(o, k) + (if k == p.id then 1 else 0)
  {
    if HasLine(o, p.id) {
      BumpLinesQuantity(o, p.id, k);
      UniqueLineCount(o, p.id);
    } else {
      QuantityAppend(o, [OrderItem(p, 1, p.price)], k);
    }
  }

  /** Adding a product raises the total by one unit price: the price the
      order's line already carries, or the product's own for a new line. */
  lemma AddToOrderTotal(o: Order, p: Product)
    requires UniqueLines(o) && Consistent(o)
    ensures Total(AddToOrder(o, p)) == Total(o) +
      (match Find(o, p.id) case Some(l) => l.product.price case None => p.price)
  {
    if HasLine(o, p.id) {
      BumpLinesTotal(o, p.id);
      UniquePriceOfLines(o, p.id);
    } else {
      TotalAppend(o, [OrderItem(p, 1, p.price)]);
    }
  }

  /** Adding keeps one line per product and every line consistent. */
  lemma AddToOrderKeepsInvariants(o: Order, p: Product)
    requires UniqueLines(o) && Consistent(o)
    ensures UniqueLines(AddToOrder(o, p)) && Consistent(AddToOrder(o, p))
  {
  }

  /** Removing takes all of the product out and keeps the rest of the
      order's quantities. */
  lemma {:induction false} RemoveFromOrderQuantity(o: Order, id: string, k: string)
    ensures QuantityOf(RemoveFromOrder(o, id), k) == if k == id then 0 else QuantityOf(o, k)
    decreases |o|
  {
    if |o| > 0 {
      RemoveFront(o, id);
      RemoveFromOrderQuantity(o[1..], id, k);
      var keep := if o[0].product.id != id then [o[0]] else [];
      QuantityAppend(keep, RemoveFromOrder(o[1..], id), k);
    }
  }

  /** Removing a product the order does not hold changes nothing. */
  lemma RemoveAbsentIsIdentity(o: Order, id: string)
    requires !HasLine(o, id)
    ensures RemoveFromOrder(o, id) == o
  {
    Seqs.FilterKeepAll(o, (l: OrderItem) => l.product.id != id);
  }

  /** Removing keeps the other lines in their original order. */
  lemma {:induction false} RemoveKeepsOrder(a: Order, b: Order, id: string)
    ensures RemoveFromOrder(a + b, id) == RemoveFromOrder(a, id) + RemoveFromOrder(b, id)
  {
    Seqs.FilterConcat(a, b, (l: OrderItem) => l.product.id != id);
  }

  /** Removing lowers the total by what the product's lines cost. */
  lemma RemoveFromOrderTotal(o: Order, id: string)
    requires UniqueLines(o) && HasLine(o, id)
    ensures Total(RemoveFromOrder(o, id)) == Total(o) - Find(o, id).value.totalPrice
  {
    TotalSplitsByProduct(o, id);
    UniqueAmount(o, id);
  }

  lemma {:induction false} UniqueAmount(o: Order, id: string)
    requires UniqueLines(o) && HasLine(o, id)
    ensures AmountOf(o, id) == Find(o, id).value.totalPrice
    decreases |o|
  {
    UniqueTail(o);
    HasLineTail(o, id);
    if o[0].product.id == id {
      NoLineNoQuantity(o[1..], id);
    } else {
      UniqueAmount(o[1..], id);
    }
  }

  lemma RemoveFromOrderKeepsInvariants(o: Order, id: string)
    requires UniqueLines(o) && Consistent(o)
    ensures UniqueLines(RemoveFromOrder(o, id)) && Consistent(RemoveFromOrder(o, id))
  {
    var r := RemoveFromOrder(o, id);
    forall i, j | 0 <= i < j < |r|
      ensures r[i].product.id != r[j].product.id
    {
      RemoveDistinct(o, id, i, j);
    }
  }

  lemma {:induction false} RemoveDistinct(o: Order, id: string, i: int, j: int)
    requires UniqueLines(o)
    requires 0 <= i < j < |RemoveFromOrder(o, id)|
    ensures RemoveFromOrder(o, id)[i].product.id != RemoveFromOrder(o, id)[j].product.id
    decreases |o|
  {
    var r := RemoveFromOrder(o, id);
    RemoveFront(o, id);
    UniqueTail(o);
    var rest := RemoveFromOrder(o[1..], id);
    if o[0].product.id != id {
      if i == 0 {
        assert r[j] == rest[j - 1];
      } else {
        assert r[i] == rest[i - 1] && r[j] == rest[j - 1];
        RemoveDistinct(o[1..], id, i - 1, j - 1);
      }
    } else {
      RemoveDistinct(o[1..], id, i, j);
    }
  }

  lemma SetLinesFront(o: Order, id: string, q: int)
    requires |o| > 0
    ensures SetLines(o, id, q)[1..] == SetLines(o[1..], id, q)
    ensures SetLines(o, id, q)[0].product.id == o[0].product.id
  {
  }

  lemma {:induction false} SetLinesQuantity(o: Order, id: string, q: int, k: string)
    ensures QuantityOf(SetLines(o, id, q), k) ==
      if k == id then q * LineCount(o, id) else QuantityOf(o, k)
    decreases |o|
  {
    if |o| > 0 {
      SetLinesFront(o, id, q);
      SetLinesQuantity(o[1..], id, q, k);
    }
  }

  /** Setting a positive quantity leaves exactly that many units of a
      product the order holds; a quantity of zero or less leaves none. */
  lemma UpdateQuantityQuantity(o: Order, id: string, q: int, k: string)
    requires UniqueLines(o)
    ensures QuantityOf(UpdateQuantity(o, id, q), k) ==
      if k != id then QuantityOf(o, k)
      else if q > 0 && HasLine(o, id) then q
      else 0
  {
    if q <= 0 {
      RemoveFromOrderQuantity(o, id, k);
    } else {
      SetLinesQuantity(o, id, q, k);
      UniqueLineCount(o, id);
    }
  }

  /** A positive quantity reprices the product's line from its unit price. */
  lemma UpdateQuantityTotal(o: Order, id: string, q: int)
    requires UniqueLines(o) && Consistent(o) && HasLine(o, id) && q > 0
    ensures Total(UpdateQuantity(o, id, q)) ==
      Total(o) - Find(o, id).value.totalPrice + q * Find(o, id).value.product.price
  {
    var r := UpdateQuantity(o, id, q);
    UpdateQuantityKeepsInvariants(o, id, q);
    TotalIsValue(o);
    TotalIsValue(r);
    SetLinesValue(o, id, q);
    UniqueLineCount(o, id);
    UniquePriceOfLines(o, id);
    UniqueAmount(o, id);
    ValueAmount(o, id);
  }

  lemma {:induction false} SetLinesValue(o: Order, id: string, q: int)
    ensures Value(SetLines(o, id, q)) ==
      Value(o) - ValueOfLines(o, id) + q * PriceOfLines(o, id)
    decreases |o|
  {
    if |o| > 0 {
      SetLinesFront(o, id, q);
      SetLinesValue(o[1..], id, q);
    }
  }

  /** Quantity times price summed over the lines for `id`. */
  function ValueOfLines(o: Order, id: string): int
    decreases |o|
  {
    if |o| == 0 then 0
    else
      (if o[0].product.id == id then o[0].quantity * o[0].product.price else 0) + ValueOfLines(o[1..], id)
  }

  lemma {:induction false} ValueAmount(o: Order, id: string)
    requires Consistent(o)
    ensures ValueOfLines(o, id) == AmountOf(o, id)
    decreases |o|
  {
    if |o| > 0 {
      assert LineConsistent(o[0]);
      ValueAmount(o[1..], id);
    }
  }

  lemma UpdateQuantityKeepsInvariants(o: Order, id: string, q: int)
    requires UniqueLines(o) && Consistent(o)
    ensures UniqueLines(UpdateQuantity(o, id, q)) && Consistent(UpdateQuantity(o, id, q))
  {
    if q <= 0 {
      RemoveFromOrderKeepsInvariants(o, id);
    } else {
      var r := UpdateQuantity(o, id, q);
      assert forall i :: 0 <= i < |o| ==> r[i].product == o[i].product;
    }
  }

  /** After a payment the register starts a fresh sale: nothing is owed,
      and the next product tapped becomes the one line of the new order. */
  lemma PaymentStartsFreshOrder(o: Order, p: Product)
    ensures Total(ProcessPayment(o)) == 0 && !PaymentEnabled(ProcessPayment(o))
    ensures AddToOrder(ProcessPayment(o), p) == [OrderItem(p, 1, p.price)]
    ensures Total(AddToOrder(ProcessPayment(o), p)) == p.price
    ensures QuantityOf(AddToOrder(ProcessPayment(o), p), p.id) == 1
  {
  }

  // ---------------------------------------------------------------------
  // The catalogue

  /** The catalogue lists each product once, at a positive price. */
  lemma CatalogueWellFormed()
    ensures forall i, j :: 0 <= i < j < |Catalogue| ==> Catalogue[i].id != Catalogue[j].id
    ensures forall i :: 0 <= i < |Catalogue| ==> Catalogue[i].price > 0
  {
  }

  /** Every catalogue product shows under exactly one of the category tabs
      besides "all", and under "all". */
  lemma CatalogueTabsPartition(p: Product)
    requires p in Catalogue
    ensures p in FilterByCategory(Catalogue, "all")
    ensures p.category in Categories[1..]
    ensures forall c :: c in Categories[1..] ==> (p in FilterByCategory(Catalogue, c) <==> c == p.category)
  {
  }

  /** A tab lists its products in catalogue order: filtering a list split
      in two gives the filtered halves, one after the other. */
  lemma FilterByCategoryKeepsOrder(a: seq<Product>, b: seq<Product>, selected: string)
    ensures FilterByCategory(a + b, selected) == FilterByCategory(a, selected) + FilterByCategory(b, selected)
  {
    if selected != "all" {
      Seqs.FilterConcat(a, b, (p: Product) => p.category == selected);
    }
  }

  /** A tab lists precisely the products of its category, each as often as
      the catalogue does. */
  lemma FilterByCategoryExact(products: seq<Product>, selected: string, p: Product)
    requires selected != "all"
    ensures multiset(FilterByCategory(products, selected))[p] ==
      if p.category == selected then multiset(products)[p] else 0
  {
    Seqs.FilterMultiset(products, (q: Product) => q.category == selected, p);
  }
}

=== FILE: common.dfy ===
/** Shared vocabulary of the POS client: optional values, staff roles,
    decimal digit strings and the decimal rendering of counts that the
    user-facing messages embed. */
module Common {

  /** A value that may be absent (a JSON `null`, an empty storage slot,
      a query that returned no row). */
  datatype Option<+T> = None | Some(value: T)

  /** The three staff roles a user record can carry. */
  datatype Role = Admin | Cashier | Manager

  /** An ASCII decimal digit, the class `\d` matches in a non-Unicode
      regular expression. */
  predicate IsDigit(c: char) {
    '0' <= c <= '9'
  }

  /** Every character of `s` is a decimal digit. */
  predicate AllDigits(s: string) {
    forall i :: 0 <= i < |s| ==> IsDigit(s[i])
  }

  /** The PIN format rule `length === n && /^\d+$/`: exactly `n`
      characters, at least one, all of them digits. */
  predicate IsPinOfLength(s: string, n: nat) {
    |s| == n && |s| > 0 && AllDigits(s)
  }

  /** The digit character for a value below ten. */
  function DigitChar(d: nat): (c: char)
    requires d < 10
    ensures IsDigit(c)
    ensures c as int - '0' as int == d
  {
    ['0', '1', '2', '3', '4', '5', '6', '7', '8', '9'][d]
  }

  /** The numeric value of a digit character. */
  function DigitValue(c: char): (d: nat)
    requires IsDigit(c)
    ensures d < 10
    ensures DigitChar(d) == c
  {
    c as int - '0' as int
  }

  /** The decimal numeral JavaScript prints for a non-negative integer
      in a template string: digits only, no leading zero. */
  function NatToString(n: nat): (s: string)
    ensures |s| > 0
    ensures AllDigits(s)
    ensures s[0] == '0' ==> n == 0 && s == "0"
    decreases n
  {
    if n < 10 then [DigitChar(n)]
    else NatToString(n / 10) + [DigitChar(n % 10)]
  }

  /** The value of a digit string read as a decimal numeral. */
  function DecimalValue(s: string): nat
    requires AllDigits(s)
    decreases |s|
  {
    if |s| == 0 then 0
    else DecimalValue(s[..|s| - 1]) * 10 + DigitValue(s[|s| - 1])
  }

  /** Reading back the numeral of `n` gives `n`: the rendering loses
      nothing, so distinct counts print differently. */
  lemma {:induction false} DecimalValueOfNatToString(n: nat)
    ensures DecimalValue(NatToString(n)) == n
    decreases n
  {
    var s := NatToString(n);
    if n >= 10 {
      DecimalValueOfNatToString(n / 10);
      assert s[..|s| - 1] == NatToString(n / 10);
    }
  }

  /** Rendering is injective. */
  lemma NatToStringInjective(m: nat, n: nat)
    requires NatToString(m) == NatToString(n)
    ensures m == n
  {
    DecimalValueOfNatToString(m);
    DecimalValueOfNatToString(n);
  }
}

=== FILE: directory.dfy ===
/** The remote `pos_users` table, seen as a map from id to record, and
    the three shapes of call the PIN provider makes on it: a filtered
    `.select(...).single()`, and a filtered `.update(...)`. */
module Directory {
  import opened Common

  type Id = string

  /** One row of `pos_users`. Timestamps are milliseconds since the epoch;
      `loginAttempts` and `lockedUntil` may be SQL NULL. */
  datatype UserRecord = UserRecord(
    id: Id,
    name: string,
    role: Role,
    pin: string,
    email: Option<string>,
    isActive: bool,
    lastLogin: Option<int>,
    loginAttempts: Option<int>,
    lockedUntil: Option<int>)

  /** The table: every row is stored under its own primary key. */
  type Table = m: map<Id, UserRecord> | forall k :: k in m ==> m[k].id == k
    witness map[]

  /** The `.eq(...)` / `.neq(...)` chains the provider puts on a query. */
  datatype Filter =
    | PinIs(pin: string)                       // .eq('pin', p)
    | ActivePinIs(pin: string)                 // .eq('pin', p).eq('is_active', true)
    | IdIs(id: Id)                             // .eq('id', i)
    | ActiveIdIs(id: Id)                       // .eq('id', i).eq('is_active', true)
    | PinIsOtherThan(pin: string, other: Id)   // .eq('pin', p).neq('id', i)

  predicate Matches(r: UserRecord, f: Filter) {
    match f
    case PinIs(p) => r.pin == p
    case ActivePinIs(p) => r.pin == p && r.isActive
    case IdIs(i) => r.id == i
    case ActiveIdIs(i) => r.id == i && r.isActive
    case PinIsOtherThan(p, i) => r.pin == p && r.id != i
  }

  /** Keys of the rows a filter selects. */
  function MatchingIds(users: Table, f: Filter): set<Id> {
    set k | k in users && Matches(users[k], f)
  }

  lemma SingletonElements<T>(s: set<T>, a: T, b: T)
    requires |s| == 1 && a in s && b in s
    ensures a == b
  {
    assert |s - {a}| == 0;
    assert a != b ==> b in s - {a};
  }

  /** `.select('*').<filter>.single()`: the row when exactly one row
      matches, and no data (an error) for zero rows or for several. */
  function Single(users: Table, f: Filter): (r: Option<UserRecord>)
    ensures r.Some? <==> |MatchingIds(users, f)| == 1
    ensures r.Some? ==> MatchingIds(users, f) == {r.value.id}
    ensures r.Some? ==> r.value.id in users && users[r.value.id] == r.value
    ensures r.Some? ==> Matches(r.value, f)
  {
    var ks := MatchingIds(users, f);
    if |ks| == 1 then
      var k :| k in ks;
      assert forall j :: j in ks ==> j == k by {
        forall j | j in ks { SingletonElements(ks, j, k); }
      }
      Some(users[k])
    else None
  }

  /** A row selected alone by a filter is what `.single()` returns. */
  lemma SingleWhenOnlyMatch(users: Table, f: Filter, k: Id)
    requires k in users && Matches(users[k], f)
    requires forall j :: j in users && j != k ==> !Matches(users[j], f)
    ensures Single(users, f) == Some(users[k])
  {
    assert MatchingIds(users, f) == {k};
  }

  /** `.single()` returns the matching row, when it returns one. */
  lemma SingleIsTheMatch(users: Table, f: Filter, k: Id)
    ensures k in users && Matches(users[k], f) && Single(users, f).Some? ==> Single(users, f).value == users[k]
  {
    if k in users && Matches(users[k], f) && Single(users, f).Some? {
      assert k in MatchingIds(users, f);
    }
  }

  /** Narrowing a filter keeps the single row when that row passes the
      narrower filter too. */
  lemma SingleOfNarrower(users: Table, f: Filter, g: Filter)
    ensures (forall j :: j in users && Matches(users[j], g) ==> Matches(users[j], f))
            && Single(users, f).Some? && Matches(Single(users, f).value, g)
            ==> Single(users, g) == Single(users, f)
  {
    if (forall j :: j in users && Matches(users[j], g) ==> Matches(users[j], f))
       && Single(users, f).Some? && Matches(Single(users, f).value, g) {
      var u := Single(users, f).value;
      assert MatchingIds(users, g) == {u.id};
    }
  }

  /** The column assignments of the provider's `.update({...})` calls. */
  datatype Patch =
    | ClearLock                                       // login_attempts: 0, locked_until: null
    | SetAttempts(attempts: int, until: Option<int>)  // login_attempts: n, locked_until: t
    | StampLogin(now: int)                            // login_attempts: 0, last_login: now, locked_until: null
    | SetPin(newPin: string)                          // pin: p

  function Apply(r: UserRecord, p: Patch): (r': UserRecord)
    ensures r'.id == r.id && r'.name == r.name && r'.role == r.role
    ensures r'.email == r.email && r'.isActive == r.isActive
  {
    match p
    case ClearLock => r.(loginAttempts := Some(0), lockedUntil := None)
    case SetAttempts(n, t) => r.(loginAttempts := Some(n), lockedUntil := t)
    case StampLogin(t) => r.(loginAttempts := Some(0), lastLogin := Some(t), lockedUntil := None)
    case SetPin(q) => r.(pin := q)
  }

  /** `.update(patch).<filter>`: every matching row is patched, every
      other row is left as it was, and no row is added or removed. An
      update that matches nothing is not an error. */
  function UpdateWhere(users: Table, f: Filter, p: Patch): (r: Table)
    ensures r.Keys == users.Keys
    ensures forall k :: k in users && Matches(users[k], f) ==> r[k] == Apply(users[k], p)
    ensures forall k :: k in users && !Matches(users[k], f) ==> r[k] == users[k]
  {
    map k | k in users :: if Matches(users[k], f) then Apply(users[k], p) else users[k]
  }

  /** No two rows share a PIN: the state the PIN scheme relies on, since
      a PIN alone identifies the person logging in. */
  predicate UniquePins(users: Table) {
    forall j, k :: j in users && k in users && users[j].pin == users[k].pin ==> j == k
  }

  /** With unique PINs, `.single()` by PIN finds a row exactly when some
      row holds the PIN. */
  lemma SingleByPinUnique(users: Table, pin: string)
    requires UniquePins(users)
    ensures Single(users, PinIs(pin)).Some? <==> exists k :: k in users && users[k].pin == pin
  {
    if k :| k in users && users[k].pin == pin {
      SingleWhenOnlyMatch(users, PinIs(pin), k);
    }
  }
}

=== FILE: pin_auth.dfy ===
/** The PIN login and lockout manager of `src/lib/pin-auth-context.tsx`.

    Each provider operation is a pure step from the world state (the
    directory, the in-memory session, the `pos_user` storage slot and the
    `isAccountLocked` flag) to the next state and the reply the caller sees.
    The clock is the `now` argument (milliseconds). A remote call that throws
    is chosen by the `fault` argument; everything else about the directory is
    deterministic. */
module PinAuth {
  import opened Common
  import opened Replies
  import opened Directory

  /** Failed attempts after which a PIN is locked. */
  const MaxLoginAttempts: int := 5
  const MillisPerMinute: int := 60 * 1000
  /** How long a lock lasts: thirty minutes. */
  const LockMillis: int := 30 * MillisPerMinute
  /** Length of a PIN the provider accepts in `changePin`. */
  const PinLength: nat := 6

  /** The remote calls the provider makes, named by their purpose. */
  datatype Call =
    | LockQuery        // login: read locked_until/login_attempts by PIN
    | UnlockWrite      // login: clear an expired lock by PIN
    | CredentialQuery  // login: read the active row by PIN
    | AttemptQuery     // incrementLoginAttempts: read login_attempts by PIN
    | AttemptWrite     // incrementLoginAttempts: write attempts and lock by PIN
    | SuccessWrite     // login: reset attempts and stamp last_login by id
    | SessionQuery     // checkSession: read the active row by id
    | PinWrite         // changePin: write the new PIN by id
    | ResetWrite       // resetLoginAttempts: clear attempts and lock by id

  /** Which remote call, if any, throws (a network error); a fault at a
      call the operation does not make has no effect. */
  datatype Fault = NoFault | Throws(at: Call)

  datatype AuthState = AuthState(
    users: Table,                  // the remote `pos_users` table
    session: Option<UserRecord>,   // the provider's `user`
    stored: Option<UserRecord>,    // the `pos_user` entry of localStorage
    accountLocked: bool)           // the provider's `isAccountLocked`

  datatype Outcome = Outcome(state: AuthState, reply: Reply)

  /** The context's `isAuthenticated`: a session is present. */
  predicate IsAuthenticated(s: AuthState) {
    s.session.Some?
  }

  /** `login_attempts || 0`: a NULL count reads as zero. */
  function AttemptsSoFar(r: UserRecord): int {
    match r.loginAttempts
    case None => 0
    case Some(n) => n
  }

  /** `Math.ceil((lockTime - now) / 60000)` for a lock still in force: the
      whole minutes, rounded up, until the lock ends. */
  function MinutesLeft(until: int, now: int): (m: nat)
    requires now < until
    ensures m >= 1
    ensures (m - 1) * MillisPerMinute < until - now <= m * MillisPerMinute
  {
    (until - now + MillisPerMinute - 1) / MillisPerMinute
  }

  // ---------------------------------------------------------------------
  // Frames shared by the contracts

  /** The rows keep their keys and everything that identifies a person:
      PIN, active flag, name, role and e-mail. Only attempt, lock and
      last-login columns may differ. */
  predicate SameIdentities(a: Table, b: Table) {
    && a.Keys == b.Keys
    && forall k :: k in a ==>
         && b[k].pin == a[k].pin && b[k].isActive == a[k].isActive
         && b[k].name == a[k].name && b[k].role == a[k].role
         && b[k].email == a[k].email
  }

  /** Only rows holding `pin` may differ between `a` and `b`. */
  predicate OnlyPinHoldersChanged(a: Table, b: Table, pin: string)
    requires a.Keys == b.Keys
  {
    forall k :: k in a && a[k].pin != pin ==> b[k] == a[k]
  }

  /** Rows identified the same way are selected the same way by every filter. */
  lemma SameIdentitiesSameMatches(a: Table, b: Table, f: Filter)
    requires SameIdentities(a, b)
    ensures MatchingIds(a, f) == MatchingIds(b, f)
  {
  }

  // ---------------------------------------------------------------------
  // login, step 1: the lock check

  /** The row the lock check reads: `.eq('pin', pin).single()`, active or not. */
  function LockProbe(users: Table, pin: string): Option<UserRecord> {
    Single(users, PinIs(pin))
  }

  /** The lock check refuses: the probed row carries a lock later than `now`. */
  predicate LockedAt(users: Table, pin: string, now: int) {
    var p := LockProbe(users, pin);
    p.Some? && p.value.lockedUntil.Some? && p.value.lockedUntil.value > now
  }

  /** The probed row carries a lock that has run out by `now`. */
  predicate LockExpired(users: Table, pin: string, now: int) {
    var p := LockProbe(users, pin);
    p.Some? && p.value.lockedUntil.Some? && p.value.lockedUntil.value <= now
  }

  datatype LockCheck = Proceed(users: Table) | StillLocked(minutes: nat) | Threw

  /** Step 1 of `login`: refuse while a lock is in force, and lift a lock
      that has run out (attempts back to zero) before the credentials are
      looked at. */
  function CheckLock(users: Table, now: int, pin: string, fault: Fault): (r: LockCheck)
    ensures r.Threw? <==>
      fault == Throws(LockQuery) || (LockExpired(users, pin, now) && fault == Throws(UnlockWrite))
    ensures r.StillLocked? <==> fault != Throws(LockQuery) && LockedAt(users, pin, now)
    ensures r.StillLocked? ==>
      var until := LockProbe(users, pin).value.lockedUntil.value;
      (r.minutes - 1) * MillisPerMinute < until - now <= r.minutes * MillisPerMinute
    ensures r.Proceed? ==> SameIdentities(users, r.users) && OnlyPinHoldersChanged(users, r.users, pin)
    ensures r.Proceed? && !LockExpired(users, pin, now) ==> r.users == users
    ensures r.Proceed? ==> forall k :: k in users ==> r.users[k].lastLogin == users[k].lastLogin
    ensures r.Proceed? && LockExpired(users, pin, now) ==>
      var k := LockProbe(users, pin).value.id;
      r.users[k].loginAttempts == Some(0) && r.users[k].lockedUntil.None?
  {
    if fault == Throws(LockQuery) then Threw
    else
      var probe := LockProbe(users, pin);
      if probe.Some? && probe.value.lockedUntil.Some? then
        var until := probe.value.lockedUntil.value;
        if until > now then StillLocked(MinutesLeft(until, now))
        else if fault == Throws(UnlockWrite) then Threw
        else Proceed(UpdateWhere(users, PinIs(pin), ClearLock))
      else Proceed(users)
  }

  // ---------------------------------------------------------------------
  // login, step 3: counting a failed attempt

  /** `incrementLoginAttempts(pin)`: when exactly one row holds the PIN,
      its count goes up by one, and it is locked for thirty minutes exactly
      when the count reaches five (otherwise the lock column is cleared).
      A thrown call is swallowed. Returns the table and the flag. */
  function IncrementLoginAttempts(users: Table, locked: bool, now: int, pin: string, fault: Fault)
    : (r: (Table, bool))
    ensures SameIdentities(users, r.0) && OnlyPinHoldersChanged(users, r.0, pin)
    ensures LockProbe(users, pin).None? || fault == Throws(AttemptQuery) ==> r == (users, locked)
    ensures LockProbe(users, pin).Some? && fault != Throws(AttemptQuery) ==>
      var u := LockProbe(users, pin).value;
      var n := AttemptsSoFar(u) + 1;
      && r.1 == (locked || n >= MaxLoginAttempts)
      && (fault == Throws(AttemptWrite) ==> r.0 == users)
      && (fault != Throws(AttemptWrite) ==>
            && r.0[u.id].loginAttempts == Some(n)
            && (r.0[u.id].lockedUntil.Some? <==> n >= MaxLoginAttempts)
            && (n >= MaxLoginAttempts ==> r.0[u.id].lockedUntil == Some(now + LockMillis))
            && r.0[u.id].lastLogin == u.lastLogin)
  {
    if fault == Throws(AttemptQuery) then (users, locked)
    else
      match LockProbe(users, pin)
      case None => (users, locked)
      case Some(u) =>
        var n := AttemptsSoFar(u) + 1;
        var until := if n >= MaxLoginAttempts then Some(now + LockMillis) else None;
        var locked' := if n >= MaxLoginAttempts then true else locked;
        if fault == Throws(AttemptWrite) then (users, locked')
        else (UpdateWhere(users, PinIs(pin), SetAttempts(n, until)), locked')
  }

  // ---------------------------------------------------------------------
  // login, steps 2 and 4: the credential check

  /** Steps 2 to 4 of `login`, on the table the lock check left. */
  function Authenticate(s: AuthState, now: int, pin: string, fault: Fault): (r: Outcome)
    ensures SameIdentities(s.users, r.state.users) && OnlyPinHoldersChanged(s.users, r.state.users, pin)
    ensures r.reply.Success? <==>
      fault != Throws(CredentialQuery) && fault != Throws(SuccessWrite)
      && Single(s.users, ActivePinIs(pin)).Some?
    // success: that row alone is reset and stamped; the session is the row as read
    ensures r.reply.Success? ==>
      var u := Single(s.users, ActivePinIs(pin)).value;
      && r.state.users[u.id] == u.(loginAttempts := Some(0), lastLogin := Some(now), lockedUntil := None)
      && (forall k :: k in s.users && k != u.id ==> r.state.users[k] == s.users[k])
      && r.state.session == Some(u) && r.state.stored == Some(u) && !r.state.accountLocked
    ensures r.reply.Failure? ==>
      r.state.session == s.session && r.state.stored == s.stored
      && r.reply.error in {InvalidPin, LoginFailed}
    // no single active row: "Invalid PIN code", and the failed attempt is counted
    ensures r.reply == Failure(InvalidPin) <==>
      fault != Throws(CredentialQuery) && Single(s.users, ActivePinIs(pin)).None?
    ensures r.reply == Failure(InvalidPin) ==>
      (r.state.users, r.state.accountLocked) == IncrementLoginAttempts(s.users, s.accountLocked, now, pin, fault)
    // a thrown credential query or success write: "Login failed", nothing changes
    ensures r.reply == Failure(LoginFailed) <==>
      fault == Throws(CredentialQuery)
      || (Single(s.users, ActivePinIs(pin)).Some? && fault == Throws(SuccessWrite))
    ensures r.reply == Failure(LoginFailed) ==> r.state == s
  {
    if fault == Throws(CredentialQuery) then Outcome(s, Failure(LoginFailed))
    else
      match Single(s.users, ActivePinIs(pin))
      case None =>
        var (users', locked') := IncrementLoginAttempts(s.users, s.accountLocked, now, pin, fault);
        Outcome(s.(users := users', accountLocked := locked'), Failure(InvalidPin))
      case Some(u) =>
        if fault == Throws(SuccessWrite) then Outcome(s, Failure(LoginFailed))
        else
          // the session keeps the row as fetched, before the write below
          Outcome(AuthState(UpdateWhere(s.users, IdIs(u.id), StampLogin(now)), Some(u), Some(u), false),
                  Success)
  }

  /** All that a login needs to succeed: no lock in force, no thrown call
      on the way, and exactly one active row holding the PIN. */
  predicate LoginAccepted(users: Table, now: int, pin: string, fault: Fault) {
    && fault != Throws(LockQuery) && fault != Throws(CredentialQuery) && fault != Throws(SuccessWrite)
    && !(LockExpired(users, pin, now) && fault == Throws(UnlockWrite))
    && !LockedAt(users, pin, now)
    && Single(users, ActivePinIs(pin)).Some?
  }

  /** `login(pin)`. */
  function Login(s: AuthState, now: int, pin: string, fault: Fault): (r: Outcome)
    // nothing but the attempt, lock and last-login columns of rows holding the PIN changes
    ensures SameIdentities(s.users, r.state.users) && OnlyPinHoldersChanged(s.users, r.state.users, pin)
    ensures r.reply.Success? <==> LoginAccepted(s.users, now, pin, fault)
    // success: the row is reset and stamped, the session is the row as read before the stamp
    ensures r.reply.Success? ==>
      var k := Single(s.users, ActivePinIs(pin)).value.id;
      && r.state.users[k].loginAttempts == Some(0)
      && r.state.users[k].lockedUntil.None?
      && r.state.users[k].lastLogin == Some(now)
      && r.state.session.Some? && r.state.session.value.id == k
      && r.state.session.value.pin == pin && r.state.session.value.isActive
      && r.state.session.value.lastLogin == s.users[k].lastLogin
      && r.state.stored == r.state.session
      && IsAuthenticated(r.state) && !r.state.accountLocked
    // failure never touches the session or the storage slot
    ensures r.reply.Failure? ==> r.state.session == s.session && r.state.stored == s.stored
    // a lock in force: the remaining minutes, rounded up, and no change at all
    ensures fault != Throws(LockQuery) && LockedAt(s.users, pin, now) ==>
      var until := LockProbe(s.users, pin).value.lockedUntil.value;
      && r.state == s && r.reply.Failure? && r.reply.error.AccountLocked?
      && (r.reply.error.minutes - 1) * MillisPerMinute < until - now <= r.reply.error.minutes * MillisPerMinute
    // no single active row holds the PIN: "Invalid PIN code" unless a call threw
    ensures r.reply == Failure(InvalidPin) <==>
      && fault != Throws(LockQuery) && fault != Throws(CredentialQuery)
      && !(LockExpired(s.users, pin, now) && fault == Throws(UnlockWrite))
      && !LockedAt(s.users, pin, now)
      && Single(s.users, ActivePinIs(pin)).None?
    // the lock message comes only from a lock in force
    ensures r.reply.Failure? && r.reply.error.AccountLocked? ==>
      fault != Throws(LockQuery) && LockedAt(s.users, pin, now)
    // every other failure is the catch-all "Login failed" of a thrown call
    ensures r.reply.Failure? && !r.reply.error.AccountLocked? && r.reply.error != InvalidPin ==>
      r.reply.error == LoginFailed
    // the flag only goes up through a failed attempt
    ensures r.reply.Failure? && r.reply.error != InvalidPin ==> r.state.accountLocked == s.accountLocked
    // a PIN no row holds changes nothing at all
    ensures (forall k :: k in s.users ==> s.users[k].pin != pin) ==> r.state == s
  {
    match CheckLock(s.users, now, pin, fault)
    case Threw => Outcome(s, Failure(LoginFailed))
    case StillLocked(m) => Outcome(s, Failure(AccountLocked(m)))
    case Proceed(users1) =>
      SameIdentitiesSameMatches(s.users, users1, ActivePinIs(pin));
      Authenticate(s.(users := users1), now, pin, fault)
  }

  /** When `login` answers "Login failed": a thrown lock query, or, with no
      lock in force, a thrown unlock write, credential query or success
      write on the way. The flag, session and storage slot stay as they were,
      and a throw in the lock check leaves the table as it was too. */
  lemma LoginFailedExactly(s: AuthState, now: int, pin: string, fault: Fault)
    ensures var r := Login(s, now, pin, fault);
      r.reply == Failure(LoginFailed) <==>
        || fault == Throws(LockQuery)
        || (&& !LockedAt(s.users, pin, now)
            && (|| (LockExpired(s.users, pin, now) && fault == Throws(UnlockWrite))
                || fault == Throws(CredentialQuery)
                || (Single(s.users, ActivePinIs(pin)).Some? && fault == Throws(SuccessWrite))))
    ensures var r := Login(s, now, pin, fault);
      r.reply == Failure(LoginFailed) ==>
        r.state.session == s.session && r.state.stored == s.stored && r.state.accountLocked == s.accountLocked
    // a throw in the lock check writes nothing: the table too is as it was
    ensures fault == Throws(LockQuery) || (LockExpired(s.users, pin, now) && fault == Throws(UnlockWrite)) ==>
      Login(s, now, pin, fault).state == s
  {
  }

  // ---------------------------------------------------------------------
  // logout, changePin, resetLoginAttempts, checkSession

  /** `logout()`: no session, empty storage slot, flag down; no remote call. */
  function Logout(s: AuthState): (r: AuthState)
    ensures !IsAuthenticated(r) && r.stored.None? && !r.accountLocked
    ensures r.users == s.users
  {
    s.(session := None, stored := None, accountLocked := false)
  }

  /** `changePin(oldPin, newPin)`: guards in order (a session, the right
      old PIN, six digits, nobody else on the new PIN), then one write by id. */
  function ChangePin(s: AuthState, oldPin: string, newPin: string, fault: Fault): (r: Outcome)
    ensures r.reply.Failure? ==> r.state == s
    ensures s.session.None? ==> r.reply == Failure(NoUserLoggedIn)
    ensures s.session.Some? && s.session.value.pin != oldPin ==>
      r.reply == Failure(CurrentPinIncorrect)
    ensures s.session.Some? && s.session.value.pin == oldPin && !IsPinOfLength(newPin, PinLength) ==>
      r.reply == Failure(PinFormat(PinLength))
    ensures (s.session.Some? && s.session.value.pin == oldPin && IsPinOfLength(newPin, PinLength)
             && Single(s.users, PinIsOtherThan(newPin, s.session.value.id)).Some?) ==>
      r.reply == Failure(PinInUse)
    ensures (s.session.Some? && s.session.value.pin == oldPin && IsPinOfLength(newPin, PinLength)
             && Single(s.users, PinIsOtherThan(newPin, s.session.value.id)).None?
             && fault == Throws(PinWrite)) ==>
      r.reply == Failure(UpdateFailed)
    ensures r.reply.Success? <==>
      && s.session.Some? && s.session.value.pin == oldPin && IsPinOfLength(newPin, PinLength)
      && Single(s.users, PinIsOtherThan(newPin, s.session.value.id)).None?
      && fault != Throws(PinWrite)
    ensures r.reply.Success? ==>
      var id := s.session.value.id;
      && r.state.session == Some(s.session.value.(pin := newPin))
      && r.state.stored == r.state.session
      && r.state.accountLocked == s.accountLocked
      && r.state.users.Keys == s.users.Keys
      && (id in s.users ==> r.state.users[id] == s.users[id].(pin := newPin))
      && (forall k :: k in s.users && k != id ==> r.state.users[k] == s.users[k])
  {
    match s.session
    case None => Outcome(s, Failure(NoUserLoggedIn))
    case Some(u) =>
      if u.pin != oldPin then Outcome(s, Failure(CurrentPinIncorrect))
      else if !IsPinOfLength(newPin, PinLength) then Outcome(s, Failure(PinFormat(PinLength)))
      else if Single(s.users, PinIsOtherThan(newPin, u.id)).Some? then Outcome(s, Failure(PinInUse))
      else if fault == Throws(PinWrite) then Outcome(s, Failure(UpdateFailed))
      else
        var u' := u.(pin := newPin);
        Outcome(s.(users := UpdateWhere(s.users, IdIs(u.id), SetPin(newPin)), session := Some(u'), stored := Some(u')),
                Success)
  }

  /** `resetLoginAttempts()`: with a session, clear that row's count and
      lock and lower the flag; a thrown write leaves everything as it was. */
  function ResetLoginAttempts(s: AuthState, fault: Fault): (r: AuthState)
    ensures s.session.None? || fault == Throws(ResetWrite) ==> r == s
    ensures s.session.Some? && fault != Throws(ResetWrite) ==>
      var id := s.session.value.id;
      && !r.accountLocked && r.session == s.session && r.stored == s.stored
      && SameIdentities(s.users, r.users)
      && (id in s.users ==> r.users[id] == s.users[id].(loginAttempts := Some(0), lockedUntil := None))
      && (forall k :: k in s.users && k != id ==> r.users[k] == s.users[k])
  {
    match s.session
    case None => s
    case Some(u) =>
      if fault == Throws(ResetWrite) then s
      else s.(users := UpdateWhere(s.users, IdIs(u.id), ClearLock), accountLocked := false)
  }

  /** `checkSession()`: a stored user is kept only if the directory still
      has an active row with its id; the session then becomes that fresh
      row (the storage slot is not rewritten). Otherwise, or when the call
      throws, the slot and the session are cleared. */
  function CheckSession(s: AuthState, fault: Fault): (r: AuthState)
    ensures r.users == s.users && r.accountLocked == s.accountLocked
    ensures s.stored.None? ==> r == s
    ensures s.stored.Some? ==>
      (r.session.Some? <==> fault != Throws(SessionQuery) && Single(s.users, ActiveIdIs(s.stored.value.id)).Some?)
    ensures s.stored.Some? && r.session.None? ==> r.stored.None?
    ensures s.stored.Some? && r.session.Some? ==>
      var id := s.stored.value.id;
      id in s.users && r.session.value == s.users[id] && s.users[id].isActive && r.stored == s.stored
  {
    match s.stored
    case None => s
    case Some(saved) =>
      if fault == Throws(SessionQuery) then s.(session := None, stored := None)
      else
        match Single(s.users, ActiveIdIs(saved.id))
        case None => s.(session := None, stored := None)
        case Some(current) => s.(session := Some(current))
  }
}

=== FILE: pin_auth_properties.dfy ===
/** Properties of the PIN provider that relate several steps: what the
    lockout actually protects, the lock window, PIN uniqueness, and the
    round trips between changePin, login, logout and checkSession. */
module PinAuthProperties {
  import opened Common
  import opened Replies
  import opened Directory
  import opened PinAuth

  // ---------------------------------------------------------------------
  // Who can be locked

  /** The failed-attempt counter never touches an active row when the
      credential check found no active row for the PIN: the one row the
      counter may update holds the PIN, and were it active the credential
      check would have selected it. */
  lemma IncrementSparesActiveRow(users: Table, locked: bool, now: int, pin: string, fault: Fault, k: Id)
    requires k in users && users[k].isActive
    requires Single(users, ActivePinIs(pin)).None?
    ensures IncrementLoginAttempts(users, locked, now, pin, fault).0[k] == users[k]
  {
    if users[k].pin == pin && LockProbe(users, pin).Some? {
      SingleIsTheMatch(users, PinIs(pin), k);
      SingleOfNarrower(users, PinIs(pin), ActivePinIs(pin));
      assert false;
    }
  }

  /** Steps 2 to 4 never penalise an active row: the success write zeroes
      its count and clears its lock, and the counter leaves it alone. */
  lemma AuthenticateNeverPenalisesActiveRow(s: AuthState, now: int, pin: string, fault: Fault, k: Id)
    requires k in s.users && s.users[k].isActive
    ensures var r := Authenticate(s, now, pin, fault);
      && (r.state.users[k].loginAttempts == s.users[k].loginAttempts || r.state.users[k].loginAttempts == Some(0))
      && (r.state.users[k].lockedUntil == s.users[k].lockedUntil || r.state.users[k].lockedUntil.None?)
  {
    if fault != Throws(CredentialQuery) && Single(s.users, ActivePinIs(pin)).None? {
      IncrementSparesActiveRow(s.users, s.accountLocked, now, pin, fault, k);
    }
  }

  /** The lock check only ever lowers a count to zero and clears a lock. */
  lemma CheckLockOnlyClears(users: Table, now: int, pin: string, fault: Fault, k: Id)
    requires k in users
    ensures var c := CheckLock(users, now, pin, fault);
      c.Proceed? ==>
        && (c.users[k].loginAttempts == users[k].loginAttempts || c.users[k].loginAttempts == Some(0))
        && (c.users[k].lockedUntil == users[k].lockedUntil || c.users[k].lockedUntil.None?)
  {
  }

  /** Login never counts a failure against an active row and never locks
      one: its attempt count either stays or drops to zero, and its lock
      either stays or is cleared. */
  lemma LoginNeverPenalisesActiveRow(s: AuthState, now: int, pin: string, fault: Fault, k: Id)
    requires k in s.users && s.users[k].isActive
    ensures var r := Login(s, now, pin, fault);
      && (r.state.users[k].loginAttempts == s.users[k].loginAttempts || r.state.users[k].loginAttempts == Some(0))
      && (r.state.users[k].lockedUntil == s.users[k].lockedUntil || r.state.users[k].lockedUntil.None?)
  {
    var c := CheckLock(s.users, now, pin, fault);
    CheckLockOnlyClears(s.users, now, pin, fault, k);
    if c.Proceed? {
      AuthenticateNeverPenalisesActiveRow(s.(users := c.users), now, pin, fault, k);
    }
  }

  /** Spelled out for a fresh active row: however many logins are tried,
      none of them locks it. */
  lemma ActiveRowStaysUnlocked(s: AuthState, now: int, pin: string, fault: Fault, k: Id)
    requires k in s.users && s.users[k].isActive && s.users[k].lockedUntil.None?
    ensures Login(s, now, pin, fault).state.users[k].lockedUntil.None?
  {
    LoginNeverPenalisesActiveRow(s, now, pin, fault, k);
  }

  /** The row a wrong guess can wear down: inactive, the only holder of
      its PIN, and not locked. */
  predicate Exposed(users: Table, pin: string, k: Id) {
    SoleHolder(users, pin, k) && !users[k].isActive && users[k].lockedUntil.None?
  }

  /** Row `k` is the only row holding `pin`. */
  predicate SoleHolder(users: Table, pin: string, k: Id) {
    && k in users && users[k].pin == pin
    && forall j :: j in users && j != k ==> users[j].pin != pin
  }

  /** A PIN that no row holds is refused with "Invalid PIN code" and
      changes nothing: there is no lock to check and no count to raise. */
  lemma UnheldPinRefused(s: AuthState, now: int, pin: string)
    requires forall k :: k in s.users ==> s.users[k].pin != pin
    ensures Login(s, now, pin, NoFault) == Outcome(s, Failure(InvalidPin))
  {
  }

  /** One failed login with the PIN of an inactive row that alone holds
      it and carries no lock: "Invalid PIN code", its count goes up by one,
      and it is locked for thirty minutes exactly when the count reaches five. */
  lemma {:induction false} FailedLoginOnInactiveRow(s: AuthState, now: int, pin: string, k: Id)
    requires Exposed(s.users, pin, k)
    ensures var r := Login(s, now, pin, NoFault);
      var n := AttemptsSoFar(s.users[k]) + 1;
      && r.reply == Failure(InvalidPin)
      && r.state.users[k].loginAttempts == Some(n)
      && (n < MaxLoginAttempts ==> r.state.users[k].lockedUntil.None?)
      && (n >= MaxLoginAttempts ==> r.state.users[k].lockedUntil == Some(now + LockMillis))
      && r.state.accountLocked == (s.accountLocked || n >= MaxLoginAttempts)
      && r.state.session == s.session
      && SoleHolder(r.state.users, pin, k) && !r.state.users[k].isActive
  {
    SingleWhenOnlyMatch(s.users, PinIs(pin), k);
    assert MatchingIds(s.users, ActivePinIs(pin)) == {};
  }

  /** A lock in force on the sole holder of a PIN refuses every login with
      that PIN, right or wrong, and changes nothing. */
  lemma LockedRowRefused(s: AuthState, now: int, pin: string, k: Id)
    requires SoleHolder(s.users, pin, k)
    requires s.users[k].lockedUntil.Some? && s.users[k].lockedUntil.value > now
    ensures Login(s, now, pin, NoFault) ==
      Outcome(s, Failure(AccountLocked(MinutesLeft(s.users[k].lockedUntil.value, now))))
  {
    SingleWhenOnlyMatch(s.users, PinIs(pin), k);
  }

  /** The fifth failure locks: an inactive row that alone holds a PIN and
      has four failures on record is locked by one more login with that PIN,
      for thirty minutes, and a login in the same instant is then refused with
      "Account locked. Try again in 30 minutes." Only such a row can reach the
      lock (see LoginNeverPenalisesActiveRow); a PIN no row holds changes
      nothing (see Login). */
  lemma FifthFailureLocks(s: AuthState, now: int, pin: string, k: Id)
    requires Exposed(s.users, pin, k) && s.users[k].loginAttempts == Some(MaxLoginAttempts - 1)
    ensures var t := Login(s, now, pin, NoFault).state;
      && t.users[k].loginAttempts == Some(MaxLoginAttempts)
      && t.users[k].lockedUntil == Some(now + LockMillis)
      && t.accountLocked
      && Login(t, now, pin, NoFault) == Outcome(t, Failure(AccountLocked(30)))
  {
    FailedLoginOnInactiveRow(s, now, pin, k);
    var t := Login(s, now, pin, NoFault).state;
    FreshLockMinutes(now);
    LockedRowRefused(t, now, pin, k);
  }

  /** A lock set this instant reports thirty minutes. */
  lemma FreshLockMinutes(now: int)
    ensures MinutesLeft(now + LockMillis, now) == 30
  {
  }

  /** A lock set at `t0` reports between 1 and 30 minutes at any later
      instant before it runs out. */
  lemma LockWindowMinutes(s: AuthState, t0: int, now: int, pin: string, fault: Fault)
    requires LockProbe(s.users, pin).Some?
    requires LockProbe(s.users, pin).value.lockedUntil == Some(t0 + LockMillis)
    requires t0 <= now < t0 + LockMillis
    requires fault != Throws(LockQuery)
    ensures var r := Login(s, now, pin, fault);
      r.reply.Failure? && r.reply.error.AccountLocked?
      && 1 <= r.reply.error.minutes <= 30 && r.state == s
  {
  }

  /** A lock that ran out is lifted by the next login: the right PIN of
      an active row that alone holds it succeeds and leaves the row with no
      count and no lock. */
  lemma ExpiredLockThenCorrectPin(s: AuthState, now: int, pin: string, k: Id)
    requires k in s.users && s.users[k].pin == pin && s.users[k].isActive
    requires s.users[k].lockedUntil.Some? && s.users[k].lockedUntil.value <= now
    requires forall j :: j in s.users && j != k ==> s.users[j].pin != pin
    ensures var r := Login(s, now, pin, NoFault);
      && r.reply == Success
      && r.state.users[k].loginAttempts == Some(0) && r.state.users[k].lockedUntil.None?
      && r.state.session.Some? && r.state.session.value.id == k
  {
    SingleWhenOnlyMatch(s.users, PinIs(pin), k);
    SingleWhenOnlyMatch(s.users, ActivePinIs(pin), k);
  }

  /** A lock that ran out is lifted before the PIN is looked at, so a
      wrong guess on the inactive sole holder counts from zero again: the
      count becomes one, no new lock is set and the flag stays as it was. */
  lemma ExpiredLockThenWrongPin(s: AuthState, now: int, pin: string, k: Id)
    requires SoleHolder(s.users, pin, k) && !s.users[k].isActive
    requires s.users[k].lockedUntil.Some? && s.users[k].lockedUntil.value <= now
    ensures var r := Login(s, now, pin, NoFault);
      && r.reply == Failure(InvalidPin)
      && r.state.users[k].loginAttempts == Some(1)
      && r.state.users[k].lockedUntil.None?
      && r.state.accountLocked == s.accountLocked
  {
    SingleWhenOnlyMatch(s.users, PinIs(pin), k);
    var users1 := CheckLock(s.users, now, pin, NoFault).users;
    SingleWhenOnlyMatch(users1, PinIs(pin), k);
  }

  // ---------------------------------------------------------------------
  // PIN uniqueness

  /** Under unique PINs the uniqueness check of changePin is exact: it
      passes exactly when no other row holds the new PIN. */
  lemma UniquenessCheckExact(users: Table, newPin: string, id: Id)
    requires UniquePins(users)
    ensures Single(users, PinIsOtherThan(newPin, id)).None? <==>
      forall j :: j in users && j != id ==> users[j].pin != newPin
  {
    if j :| j in users && j != id && users[j].pin == newPin {
      SingleWhenOnlyMatch(users, PinIsOtherThan(newPin, id), j);
    }
  }

  /** A successful changePin keeps PINs unique: the new PIN was held by
      nobody else. */
  lemma ChangePinKeepsPinsUnique(s: AuthState, oldPin: string, newPin: string, fault: Fault)
    requires UniquePins(s.users)
    ensures UniquePins(ChangePin(s, oldPin, newPin, fault).state.users)
  {
    var r := ChangePin(s, oldPin, newPin, fault);
    if r.reply.Success? {
      var id := s.session.value.id;
      UniquenessCheckExact(s.users, newPin, id);
      var u' := r.state.users;
      forall j, k | j in u' && k in u' && u'[j].pin == u'[k].pin
        ensures j == k
      {
      }
    }
  }

  /** The other operations never write a PIN, so they keep PINs unique too. */
  lemma OtherOperationsKeepPinsUnique(s: AuthState, now: int, pin: string, fault: Fault)
    requires UniquePins(s.users)
    ensures UniquePins(Login(s, now, pin, fault).state.users)
    ensures UniquePins(ResetLoginAttempts(s, fault).users)
    ensures UniquePins(CheckSession(s, fault).users)
    ensures UniquePins(Logout(s).users)
  {
  }

  // ---------------------------------------------------------------------
  // Round trips

  /** After a successful changePin the new PIN logs the same person in,
      and the old PIN no longer matches anyone and changes nothing. */
  lemma {:induction false} ChangePinThenLogin(s: AuthState, oldPin: string, newPin: string, now: int)
    requires UniquePins(s.users)
    requires s.session.Some? && s.session.value.id in s.users
    requires s.users[s.session.value.id].pin == oldPin
    requires s.users[s.session.value.id].isActive
    requires s.users[s.session.value.id].lockedUntil.None?
    requires oldPin != newPin
    requires ChangePin(s, oldPin, newPin, NoFault).reply.Success?
    ensures var t := ChangePin(s, oldPin, newPin, NoFault).state;
      && Login(t, now, newPin, NoFault).reply == Success
      && Login(t, now, newPin, NoFault).state.session.value.id == s.session.value.id
      && Login(t, now, oldPin, NoFault) == Outcome(t, Failure(InvalidPin))
  {
    var id := s.session.value.id;
    var t := ChangePin(s, oldPin, newPin, NoFault).state;
    UniquenessCheckExact(s.users, newPin, id);
    assert forall j :: j in t.users && j != id ==> t.users[j].pin != newPin;
    SingleWhenOnlyMatch(t.users, PinIs(newPin), id);
    SingleWhenOnlyMatch(t.users, ActivePinIs(newPin), id);
    assert forall j :: j in t.users ==> t.users[j].pin != oldPin;
    UnheldPinRefused(t, now, oldPin);
  }

  /** A login makes `isAuthenticated` true exactly when it succeeds, and
      otherwise leaves it as it was. */
  lemma LoginAuthenticates(s: AuthState, now: int, pin: string, fault: Fault)
    ensures IsAuthenticated(Login(s, now, pin, fault).state) <==>
      IsAuthenticated(s) || LoginAccepted(s.users, now, pin, fault)
  {
  }

  /** `isAuthenticated` across the other operations: a logout always signs
      out; changePin and resetLoginAttempts never change it; a restore signs
      in only with a stored user. */
  lemma AuthenticatedAcrossOperations(s: AuthState, oldPin: string, newPin: string, fault: Fault)
    ensures !IsAuthenticated(Logout(s))
    ensures IsAuthenticated(ChangePin(s, oldPin, newPin, fault).state) == IsAuthenticated(s)
    ensures IsAuthenticated(ResetLoginAttempts(s, fault)) == IsAuthenticated(s)
    ensures IsAuthenticated(CheckSession(s, fault)) ==> s.stored.Some? || IsAuthenticated(s)
  {
  }

  /** Logging out and restoring leaves nobody signed in and touches no row. */
  lemma LogoutThenRestore(s: AuthState, fault: Fault)
    ensures var r := CheckSession(Logout(s), fault);
      !IsAuthenticated(r) && r.users == s.users
  {
  }

  /** The session a login leaves is the row as read before the login was
      stamped; restoring it from storage replaces it with the current row,
      whose last login is the login just made. */
  lemma {:induction false} RestoreRefreshesLoginSession(s: AuthState, now: int, pin: string, k: Id)
    requires k in s.users && s.users[k].pin == pin && s.users[k].isActive
    requires forall j :: j in s.users && j != k ==> s.users[j].pin != pin
    requires s.users[k].lockedUntil.None?
    ensures var r := Login(s, now, pin, NoFault);
      var t := CheckSession(r.state, NoFault);
      && r.reply == Success
      && r.state.session.value.lastLogin == s.users[k].lastLogin
      && t.session == Some(r.state.users[k])
      && t.session.value.lastLogin == Some(now)
  {
    SingleWhenOnlyMatch(s.users, PinIs(pin), k);
    SingleWhenOnlyMatch(s.users, ActivePinIs(pin), k);
    var r := Login(s, now, pin, NoFault);
    SingleWhenOnlyMatch(r.state.users, ActiveIdIs(k), k);
  }

  /** After resetLoginAttempts, the signed-in person's PIN is not refused
      as locked, whatever the time. */
  lemma ResetLiftsLock(s: AuthState, now: int)
    requires UniquePins(s.users)
    requires s.session.Some? && s.session.value.id in s.users
    ensures var r := ResetLoginAttempts(s, NoFault);
      !r.accountLocked && !LockedAt(r.users, r.users[s.session.value.id].pin, now)
  {
  }
}

=== FILE: pin_pad.dfy ===
/** The PIN-entry screen of `src/app/pin_login.tsx`: a digit buffer that
    submits itself when it reaches six characters, driven by the on-screen
    pad and by the keyboard, and the handling of the login reply. */
module PinPad {
  import opened Common
  import opened Replies
  import PinAuth

  /** Digits the buffer holds before it submits. */
  const PadLength: nat := 6

  /** The screen's state: the buffer `pin`, the `error` line, the brief
      `success` banner and the `isSubmitting` flag. */
  datatype Pad = Pad(pin: string, error: string, success: bool, submitting: bool)

  const Initial: Pad := Pad("", "", false, false)

  /** An event's effect: the new state and the PIN handed to `login`, if any. */
  datatype Step = Step(pad: Pad, submitted: Option<string>)

  /** The buffer bound the screen keeps. */
  predicate WithinBound(p: Pad) {
    |p.pin| <= PadLength
  }

  /** `handleSubmit(pin)` up to the `await`: busy, error cleared, PIN sent. */
  function StartSubmit(p: Pad, pin: string): (r: Step)
    ensures r.pad.submitting && r.pad.error == "" && r.pad.pin == p.pin
    ensures r.submitted == Some(pin)
    ensures r.pad.success == p.success
  {
    Step(p.(submitting := true, error := ""), Some(pin))
  }

  /** `handlePinChange(digit)`: append while the buffer is short, and
      submit the moment it reaches six characters. */
  function PinChange(p: Pad, digit: string): (r: Step)
    ensures |p.pin| >= PadLength ==> r == Step(p, None)
    ensures |p.pin| < PadLength ==> r.pad.pin == p.pin + digit && r.pad.error == ""
    ensures r.submitted.Some? <==> |p.pin| < PadLength && |p.pin| + |digit| == PadLength
    ensures r.submitted.Some? ==> r.submitted.value == r.pad.pin && r.pad.submitting
    ensures r.submitted.None? ==> r.pad.submitting == p.submitting
    ensures r.pad.success == p.success
  {
    if |p.pin| < PadLength then
      var pin' := p.pin + digit;
      var p' := p.(pin := pin', error := "");
      if |pin'| == PadLength then StartSubmit(p', pin') else Step(p', None)
    else Step(p, None)
  }

  /** `handleBackspace()`: `pin.slice(0, -1)`, which leaves "" as "". */
  function Backspace(p: Pad): (r: Pad)
    ensures |p.pin| > 0 ==> r.pin + [p.pin[|p.pin| - 1]] == p.pin
    ensures |p.pin| == 0 ==> r.pin == ""
    ensures r.error == "" && r.submitting == p.submitting && r.success == p.success
  {
    var pin' := if |p.pin| == 0 then "" else p.pin[..|p.pin| - 1];
    p.(pin := pin', error := "")
  }

  /** `handleClear()`. */
  function Clear(p: Pad): (r: Pad)
    ensures r.pin == "" && r.error == ""
    ensures r.submitting == p.submitting && r.success == p.success
  {
    p.(pin := "", error := "")
  }

  /** `handleSubmit` after the `await`: a success shows the banner; a
      failure shows `result.error || 'Login failed'` and empties the buffer.
      Either way the screen is no longer busy. */
  function FinishSubmit(p: Pad, success: bool, error: Option<string>): (r: Pad)
    ensures !r.submitting
    ensures success ==> r.success && r.pin == p.pin && r.error == p.error
    ensures !success ==> r.pin == "" && r.success == p.success
    ensures !success && error.Some? && error.value != "" ==> r.error == error.value
    ensures !success && (error.None? || error.value == "") ==> r.error == "Login failed"
  {
    if success then p.(success := true, submitting := false)
    else
      var shown := match error
        case Some(e) => if e == "" then "Login failed" else e
        case None => "Login failed";
      p.(error := shown, pin := "", submitting := false)
  }

  /** The one-second timer after a success: banner off, buffer emptied. */
  function SuccessTimerFires(p: Pad): (r: Pad)
    ensures !r.success && r.pin == ""
    ensures r.error == p.error && r.submitting == p.submitting
  {
    p.(success := false, pin := "")
  }

  /** Backspace undoes a digit: the buffer is back to what it was, even
      when that digit set off a submission. */
  lemma BackspaceUndoesDigit(p: Pad, d: char)
    requires |p.pin| < PadLength
    ensures Backspace(PinChange(p, [d]).pad).pin == p.pin
    ensures Clear(PinChange(p, [d]).pad).pin == ""
  {
    assert (p.pin + [d])[..|p.pin|] == p.pin;
  }

  // ---------------------------------------------------------------------
  // Keyboard

  /** JavaScript's `a < b` on strings: lexicographic on characters, a proper
      prefix coming first. */
  predicate LexLess(a: string, b: string)
    decreases |a|
  {
    |b| > 0 && (|a| == 0 || a[0] < b[0] || (a[0] == b[0] && LexLess(a[1..], b[1..])))
  }

  /** `e.key >= '0' && e.key <= '9'`, that is `!(key < "0") && !("9" < key)`. */
  predicate IsDigitKey(key: string) {
    !LexLess(key, "0") && !LexLess("9", key)
  }

  /** What the comparison admits: a string whose first character is a digit
      below nine, followed by anything, or exactly "9". */
  lemma DigitKeyShape(key: string)
    ensures IsDigitKey(key) <==>
      |key| > 0 && '0' <= key[0] && (key[0] < '9' || key == "9")
  {
    assert "0"[1..] == "" && "9"[1..] == "";
    if |key| > 0 {
      assert !LexLess(key[1..], "");
      assert LexLess(key, "0") <==> key[0] < '0';
      assert LexLess("", key[1..]) <==> |key| > 1;
      assert LexLess("9", key) <==> '9' < key[0] || (key[0] == '9' && |key| > 1);
      if key[0] == '9' && |key| == 1 {
        assert key == "9";
      }
    }
  }

  /** The `key` values browsers deliver: one character for a printable key,
      or a key name such as "Enter", "Backspace" or "F1", which starts with a
      capital letter. */
  predicate BrowserKey(key: string) {
    |key| == 1 || (|key| > 1 && 'A' <= key[0] <= 'Z')
  }

  /** For browser keys the comparison admits exactly the ten digit keys. */
  lemma BrowserDigitKeys(key: string)
    requires BrowserKey(key)
    ensures IsDigitKey(key) <==> |key| == 1 && IsDigit(key[0])
  {
    DigitKeyShape(key);
  }

  /** The `keydown` handler: digits append, Backspace deletes, Enter submits
      a full buffer, and every other key does nothing. The keyboard is not
      gated by the busy or locked state. */
  function KeyPress(p: Pad, key: string): (r: Step)
    ensures IsDigitKey(key) ==> r == PinChange(p, key)
    ensures !IsDigitKey(key) && key != "Enter" ==> r.submitted.None?
    ensures !IsDigitKey(key) && key == "Backspace" ==> r.pad == Backspace(p)
    ensures !IsDigitKey(key) && key != "Backspace" && key != "Enter" ==> r == Step(p, None)
    ensures key == "Enter" ==> (r.submitted.Some? <==> |p.pin| == PadLength)
    ensures key == "Enter" && |p.pin| == PadLength ==> r == StartSubmit(p, p.pin)
    ensures key == "Enter" && |p.pin| != PadLength ==> r == Step(p, None)
  {
    if IsDigitKey(key) then PinChange(p, key)
    else if key == "Backspace" then Step(Backspace(p), None)
    else if key == "Enter" && |p.pin| == PadLength then StartSubmit(p, p.pin)
    else Step(p, None)
  }

  /** A keyboard event submits exactly when a digit completes the buffer or
      Enter is pressed on a full one. */
  lemma KeyPressSubmits(p: Pad, key: string)
    requires BrowserKey(key)
    ensures KeyPress(p, key).submitted.Some? <==>
      (|key| == 1 && IsDigit(key[0]) && |p.pin| == PadLength - 1)
      || (key == "Enter" && |p.pin| == PadLength)
  {
    BrowserDigitKeys(key);
    assert !IsDigitKey("Enter") by { DigitKeyShape("Enter"); }
  }

  /** A browser key never pushes the buffer past six characters, and only
      digits ever enter it. */
  lemma KeyPressKeepsBuffer(p: Pad, key: string)
    requires BrowserKey(key) && WithinBound(p) && AllDigits(p.pin)
    ensures var r := KeyPress(p, key).pad;
      WithinBound(r) && AllDigits(r.pin)
      && (|r.pin| > |p.pin| ==> |key| == 1 && IsDigit(key[0]) && r.pin == p.pin + key)
  {
  }

  /** What the bound rests on: the handler appends the whole key, so a
      two-character key starting with a digit (which browsers do not send)
      would overfill a buffer of five and never submit it. */
  lemma LongDigitKeyOverfills()
    ensures var r := KeyPress(Pad("12345", "", false, false), "12");
      |r.pad.pin| == 7 && r.submitted.None?
  {
  }

  // ---------------------------------------------------------------------
  // The on-screen pad

  /** `disabled={isSubmitting || isAccountLocked}` on every pad button. */
  predicate InputDisabled(p: Pad, accountLocked: bool) {
    p.submitting || accountLocked
  }

  datatype Button = DigitButton(d: char) | ClearButton | BackspaceButton

  /** A pad button press: nothing while disabled, the handler otherwise. */
  function Press(p: Pad, accountLocked: bool, b: Button): (r: Step)
    ensures InputDisabled(p, accountLocked) ==> r == Step(p, None)
    ensures !InputDisabled(p, accountLocked) && b.DigitButton? ==> r == PinChange(p, [b.d])
    ensures !InputDisabled(p, accountLocked) && b.ClearButton? ==> r == Step(Clear(p), None)
    ensures !InputDisabled(p, accountLocked) && b.BackspaceButton? ==> r == Step(Backspace(p), None)
  {
    if InputDisabled(p, accountLocked) then Step(p, None)
    else match b
      case DigitButton(d) => PinChange(p, [d])
      case ClearButton => Step(Clear(p), None)
      case BackspaceButton => Step(Backspace(p), None)
  }

  /** Pad buttons keep the buffer within six digits. */
  lemma PressKeepsBuffer(p: Pad, accountLocked: bool, b: Button)
    requires WithinBound(p) && AllDigits(p.pin)
    requires b.DigitButton? ==> IsDigit(b.d)
    ensures var r := Press(p, accountLocked, b).pad;
      WithinBound(r) && AllDigits(r.pin)
  {
  }

  /** The pad is disabled from the start of a submission until its reply
      arrives; once the reply is shown it is enabled again exactly when the
      account is not locked. */
  lemma PadDisabledWhileSubmitting(p: Pad, pin: string, success: bool, error: Option<string>, accountLocked: bool)
    ensures InputDisabled(StartSubmit(p, pin).pad, accountLocked)
    ensures forall b :: Press(StartSubmit(p, pin).pad, accountLocked, b) == Step(StartSubmit(p, pin).pad, None)
    ensures InputDisabled(FinishSubmit(StartSubmit(p, pin).pad, success, error), accountLocked) <==> accountLocked
  {
  }

  /** A successful submission followed by the one-second timer leaves the
      screen as it was on mount: empty buffer, no error, no banner, idle. */
  lemma SuccessThenTimerResets(p: Pad, pin: string, error: Option<string>)
    ensures SuccessTimerFires(FinishSubmit(StartSubmit(p, pin).pad, true, error)) == Initial
  {
  }

  // ---------------------------------------------------------------------
  // The screen and the provider together

  /** `handleSubmit(pin)` from start to end, with the provider's `login`. */
  function SubmitToProvider(p: Pad, s: PinAuth.AuthState, pin: string, now: int, fault: PinAuth.Fault)
    : (r: (Pad, PinAuth.Outcome))
    ensures r.1 == PinAuth.Login(s, now, pin, fault)
    ensures !r.0.submitting
    ensures r.1.reply.Success? ==> r.0.success
    ensures r.1.reply.Failure? ==> r.0.pin == "" && r.0.error == Message(r.1.reply.error)
    // the attempt that raises the flag shows "Invalid PIN code"
    ensures r.1.state.accountLocked && !s.accountLocked ==>
      r.1.reply == Failure(InvalidPin) && r.0.error == "Invalid PIN code"
    // once the reply is in, the pad is disabled exactly when the provider's flag is up
    ensures InputDisabled(r.0, r.1.state.accountLocked) <==> r.1.state.accountLocked
  {
    var started := StartSubmit(p, pin).pad;
    var o := PinAuth.Login(s, now, pin, fault);
    (FinishSubmit(started, o.reply.Success?, ErrorField(o.reply)), o)
  }
}

=== FILE: replies.dfy ===
/** The `{ success, error? }` answer both PIN providers give their callers,
    with the exact message strings the providers return. */
module Replies {
  import opened Common

  /** Why an authentication operation failed. */
  datatype AuthError =
    | AccountLocked(minutes: nat)    // lock still in force, whole minutes left
    | InvalidPin                     // no single active record holds the PIN
    | LoginFailed                    // a directory call threw during login
    | NoUserLoggedIn                 // changePin without a session
    | CurrentPinIncorrect            // changePin with the wrong old PIN
    | PinFormat(length: nat)         // new PIN is not `length` digits
    | PinInUse                       // another record already holds the new PIN
    | UpdateFailed                   // the PIN write failed

  datatype Reply = Success | Failure(error: AuthError)

  /** The user-facing text of an error, as the providers spell it. */
  function Message(e: AuthError): (m: string)
    ensures |m| > 0
    ensures e.AccountLocked? ==>
      m == "Account locked. Try again in " + NatToString(e.minutes) + " minutes."
  {
    match e
    case AccountLocked(n) => "Account locked. Try again in " + NatToString(n) + " minutes."
    case InvalidPin => "Invalid PIN code"
    case LoginFailed => "Login failed. Please try again."
    case NoUserLoggedIn => "No user logged in"
    case CurrentPinIncorrect => "Current PIN is incorrect"
    case PinFormat(n) => "PIN must be " + NatToString(n) + " digits"
    case PinInUse => "PIN is already in use by another user"
    case UpdateFailed => "Failed to update PIN"
  }

  /** The `error` field of the reply object: absent on success. */
  function ErrorField(r: Reply): (f: Option<string>)
    ensures f.None? <==> r.Success?
    ensures f.Some? ==> |f.value| > 0
  {
    match r
    case Success => None
    case Failure(e) => Some(Message(e))
  }

  /** The lock message tells the number of minutes back exactly: two
      different counts never render to the same text. */
  lemma {:induction false} LockMessageDeterminesMinutes(m: nat, n: nat)
    requires Message(AccountLocked(m)) == Message(AccountLocked(n))
    ensures m == n
  {
    var p := "Account locked. Try again in ";
    var q := " minutes.";
    var sm := NatToString(m);
    var sn := NatToString(n);
    assert p + sm + q == p + sn + q;
    assert |sm| == |sn|;
    assert forall i :: 0 <= i < |sm| ==> sm[i] == (p + sm + q)[|p| + i];
    assert forall i :: 0 <= i < |sn| ==> sn[i] == (p + sn + q)[|p| + i];
    assert sm == sn;
    NatToStringInjective(m, n);
  }
}

=== FILE: seqs.dfy ===
/** Order-preserving filtering, the `Array.prototype.filter` the cart and
    the catalog view both use. */
module Seqs {

  /** The elements of `s` that `keep` accepts, in their original order. */
  function Filter<T>(s: seq<T>, keep: T -> bool): (r: seq<T>)
    ensures |r| <= |s|
    ensures forall i :: 0 <= i < |r| ==> keep(r[i])
    ensures forall i :: 0 <= i < |r| ==> r[i] in s
    ensures forall i :: 0 <= i < |s| && keep(s[i]) ==> s[i] in r
    decreases |s|
  {
    if |s| == 0 then []
    else if keep(s[0]) then [s[0]] + Filter(s[1..], keep)
    else Filter(s[1..], keep)
  }

  /** Filtering a concatenation filters each part in place: kept elements
      never change their relative order. */
  lemma {:induction false} FilterConcat<T>(a: seq<T>, b: seq<T>, keep: T -> bool)
    ensures Filter(a + b, keep) == Filter(a, keep) + Filter(b, keep)
    decreases |a|
  {
    if |a| > 0 {
      assert (a + b)[0] == a[0];
      assert (a + b)[1..] == a[1..] + b;
      FilterConcat(a[1..], b, keep);
    } else {
      assert a + b == b;
    }
  }

  /** A filter that accepts everything is the identity. */
  lemma {:induction false} FilterKeepAll<T>(s: seq<T>, keep: T -> bool)
    requires forall i :: 0 <= i < |s| ==> keep(s[i])
    ensures Filter(s, keep) == s
    decreases |s|
  {
    if |s| > 0 {
      FilterKeepAll(s[1..], keep);
    }
  }

  /** Each element is kept exactly as often as it occurs, or dropped. */
  lemma {:induction false} FilterMultiset<T>(s: seq<T>, keep: T -> bool, x: T)
    ensures multiset(Filter(s, keep))[x] == if keep(x) then multiset(s)[x] else 0
    decreases |s|
  {
    if |s| > 0 {
      FilterMultiset(s[1..], keep, x);
      assert s == [s[0]] + s[1..];
    }
  }
}

=== FILE: stub_auth.dfy ===
/** The stand-in PIN provider of `src/types/pin-auth-context.tsx`: three
    fixed sample users, a login that looks the PIN up among them, and a
    `changePin` with the same guard order as the real provider but a
    four-digit rule and no write to the user list. */
module StubAuth {
  import opened Common
  import opened Replies

  /** A sample user: no e-mail, no activity flag, no lockout columns. */
  datatype StubUser = StubUser(id: string, name: string, role: Role, pin: string)

  /** The signed-in user and the `pos_user` storage slot. */
  datatype StubState = StubState(user: Option<StubUser>, stored: Option<StubUser>)

  datatype StubOutcome = StubOutcome(state: StubState, reply: Reply)

  /** Digits a PIN has under the stub's rule. */
  const StubPinLength: nat := 4

  const SampleUsers: seq<StubUser> := [
    StubUser("1", "Admin User", Admin, "1234"),
    StubUser("2", "Cashier 1", Cashier, "5678"),
    StubUser("3", "Manager", Manager, "9999")
  ]

  /** The provider's state on mount, before the storage slot is read. */
  const Initial: StubState := StubState(None, None)

  predicate IsAuthenticated(s: StubState) {
    s.user.Some?
  }

  /** `users.find(u => u.pin === pin)`: the first user with the PIN. */
  function FindByPin(users: seq<StubUser>, pin: string): (r: Option<StubUser>)
    ensures r.Some? <==> exists i :: 0 <= i < |users| && users[i].pin == pin
    ensures r.Some? ==> r.value in users && r.value.pin == pin
    ensures r.Some? ==>
      exists i :: 0 <= i < |users| && users[i] == r.value && (forall j :: 0 <= j < i ==> users[j].pin != pin)
    decreases |users|
  {
    if |users| == 0 then None
    else if users[0].pin == pin then Some(users[0])
    else
      var r := FindByPin(users[1..], pin);
      assert forall i :: 1 <= i < |users| ==> users[i] == users[1..][i - 1];
      if r.Some? then
        assert exists i :: 0 <= i < |users| && users[i] == r.value && (forall j :: 0 <= j < i ==> users[j].pin != pin) by {
          var i :| 0 <= i < |users[1..]| && users[1..][i] == r.value
            && (forall j :: 0 <= j < i ==> users[1..][j].pin != pin);
          assert users[i + 1] == r.value;
        }
        r
      else r
  }

  /** With distinct PINs, the user found is the one holding the PIN. */
  lemma FindByPinUnique(users: seq<StubUser>, i: int)
    requires 0 <= i < |users|
    requires forall a, b :: 0 <= a < b < |users| ==> users[a].pin != users[b].pin
    ensures FindByPin(users, users[i].pin) == Some(users[i])
  {
  }

  /** The sample users have distinct ids and distinct four-digit PINs. */
  lemma SampleUsersWellFormed()
    ensures forall a, b :: 0 <= a < b < |SampleUsers| ==>
      SampleUsers[a].pin != SampleUsers[b].pin && SampleUsers[a].id != SampleUsers[b].id
    ensures forall a :: 0 <= a < |SampleUsers| ==> IsPinOfLength(SampleUsers[a].pin, StubPinLength)
  {
  }

  /** `login(pin)`: a sample user with the PIN is signed in and written to
      storage; any other PIN is refused and changes nothing. */
  function StubLogin(s: StubState, pin: string): (r: StubOutcome)
    ensures r.reply.Success? <==> exists i :: 0 <= i < |SampleUsers| && SampleUsers[i].pin == pin
    ensures r.reply.Success? ==> r.state.user.Some? && r.state.user.value in SampleUsers
    ensures r.reply.Success? ==> r.state.user.value.pin == pin && r.state.stored == r.state.user
    ensures r.reply.Failure? ==> r.reply.error == InvalidPin && r.state == s
  {
    match FindByPin(SampleUsers, pin)
    case Some(u) => StubOutcome(StubState(Some(u), Some(u)), Success)
    case None => StubOutcome(s, Failure(InvalidPin))
  }

  /** `logout()`: signed out, storage slot removed. */
  function StubLogout(s: StubState): (r: StubState)
    ensures !IsAuthenticated(r) && r.stored.None?
  {
    StubState(None, None)
  }

  /** The mount effect: a stored user becomes the signed-in user. */
  function StubRestore(s: StubState): (r: StubState)
    ensures r.stored == s.stored
    ensures s.stored.Some? ==> r.user == s.stored
    ensures s.stored.None? ==> r.user == s.user
  {
    match s.stored
    case Some(u) => s.(user := Some(u))
    case None => s
  }

  /** `changePin(old, new)`: no user, then a wrong current PIN, then a new
      PIN that is not four digits; otherwise the session and storage take
      the new PIN. The sample list is not written and no other user's PIN
      is checked. */
  function StubChangePin(s: StubState, oldPin: string, newPin: string): (r: StubOutcome)
    ensures r.reply.Failure? ==> r.state == s
    ensures s.user.None? ==> r.reply == Failure(NoUserLoggedIn)
    ensures s.user.Some? && s.user.value.pin != oldPin ==> r.reply == Failure(CurrentPinIncorrect)
    ensures s.user.Some? && s.user.value.pin == oldPin && !IsPinOfLength(newPin, StubPinLength) ==>
      r.reply == Failure(PinFormat(StubPinLength))
    ensures r.reply.Success? <==>
      s.user.Some? && s.user.value.pin == oldPin && IsPinOfLength(newPin, StubPinLength)
    ensures r.reply.Success? ==>
      r.state.user == Some(s.user.value.(pin := newPin)) && r.state.stored == r.state.user
  {
    match s.user
    case None => StubOutcome(s, Failure(NoUserLoggedIn))
    case Some(u) =>
      if u.pin != oldPin then StubOutcome(s, Failure(CurrentPinIncorrect))
      else if !IsPinOfLength(newPin, StubPinLength) then StubOutcome(s, Failure(PinFormat(StubPinLength)))
      else
        var u' := u.(pin := newPin);
        StubOutcome(StubState(Some(u'), Some(u')), Success)
  }

  /** The format message the stub gives is "PIN must be 4 digits". */
  lemma StubFormatMessage()
    ensures Message(PinFormat(StubPinLength)) == "PIN must be 4 digits"
  {
  }

  /** Each sample PIN signs in its own user. */
  lemma SamplePinSignsInItsUser(s: StubState, i: int)
    requires 0 <= i < |SampleUsers|
    ensures StubLogin(s, SampleUsers[i].pin).state.user == Some(SampleUsers[i])
  {
  }

  /** A changed PIN lives only in the session: after signing out, the old
      sample PIN still signs the user in, and the new one signs in only a
      sample user who already had it. */
  lemma ChangedPinIsForgotten(s: StubState, i: int, newPin: string)
    requires 0 <= i < |SampleUsers| && s.user == Some(SampleUsers[i])
    requires StubChangePin(s, SampleUsers[i].pin, newPin).reply.Success?
    ensures var after := StubLogout(StubChangePin(s, SampleUsers[i].pin, newPin).state);
      && StubLogin(after, SampleUsers[i].pin).state.user == Some(SampleUsers[i])
      && (StubLogin(after, newPin).reply.Success? <==>
            exists j :: 0 <= j < |SampleUsers| && SampleUsers[j].pin == newPin)
  {
  }

  /** Nothing stops a user from taking another sample user's PIN: the
      admin may change "1234" to the cashier's "5678", after which that
      PIN signs in the cashier. */
  lemma StubAllowsSharedPin()
    ensures var s := StubState(Some(SampleUsers[0]), Some(SampleUsers[0]));
      && StubChangePin(s, "1234", "5678").reply.Success?
      && StubLogin(StubLogout(StubChangePin(s, "1234", "5678").state), "5678").state.user
           == Some(SampleUsers[1])
  {
  }

  /** Signing out and restoring from storage signs no one in; restoring
      after a login gives back the user who signed in. */
  lemma StubRestoreRoundTrip(s: StubState, pin: string)
    ensures StubRestore(StubLogout(s)) == StubState(None, None)
    ensures StubLogin(s, pin).reply.Success? ==>
      StubRestore(StubState(None, StubLogin(s, pin).state.stored)).user == StubLogin(s, pin).state.user
  {
  }
}
